=== FILE: README.md ===
# Student subdomain and email provisioning, modelled in Dafny

The modelled system is a small HTTP backend. Students, identified by a NIM (student
number) from a fixed roster, use it to claim up to three subdomains of a shared
root domain and up to three email-forwarding routes under those subdomains. Each
claim creates an object at a DNS/email-routing provider and a record in a document
store. Some NIMs can be protected with HTTP Basic credentials. An administrator can
list the owners page by page and can reset a NIM, which deletes all of its
provider objects and records.

The model covers the following:
- **Input validators** (`Validators`): the label normaliser `sanitizeSub`, the local-part check and the destination-address check.
- **Text primitives** (`Text`): JavaScript `trim`, `toLowerCase` and `split`, which those validators use.
- **Access gates** (`NimAuth`):
  - the constant-time comparison `safeEqual`;
  - Basic credential parsing;
  - the protected-NIM list;
  - the per-NIM gate and the admin gate, as pure decisions `Pass | Unauthorized | ConfigError`.
- **Identity lookup** (`Students`): the roster lookup `checkNim`.
- **Create handlers** (`Provisioning`): create-subdomain and create-email, as transitions on an abstract store (`Storage`).
- **Admin reset** (`Reset`).
- **Admin list** (`AdminList`): the page/limit arithmetic and page totals of its summary mode.
- **Request sequences** (`Workflow`): any sequence of requests to the writing endpoints, with the reset handler either as written or as evidently intended (see Findings).

A handler returns a `Step` made of three parts:
- the new store;
- the provider calls it made, in order;
- the response it sent.

The provider's answer to a creation is a parameter. For deletions, the answer is a function of the call. Either can succeed or fail. This lets the contracts state things such as "no provider call before every check has passed", "a provider failure leaves the store unchanged" and "reset never stops at a failure".

## Model

| member | source | states |
|---|---|---|
| Text.Trim | utils/students.js:9 | `String.prototype.trim`: the result is a contiguous piece of the input with only white space before and after it, has no white space at either end, and is empty exactly when the input is all white space; input without white space is unchanged |
| Text.TrimStart | utils/students.js:9 | what is dropped at the front is all white space, and what is left is a suffix that does not start with white space |
| Text.TrimEnd | utils/students.js:9 | what is dropped at the back is all white space, and what is left is a prefix that does not end with white space |
| Text.TrimIdempotent | utils/students.js:9 | trimming twice is trimming once |
| Text.JoinSplit | utils/nim_auth.js:28-29 | splitting at a separator and joining back gives the original string |
| Text.SplitJoin | utils/nim_auth.js:28-29 | joining separator-free pieces and splitting back gives the same pieces |
| Text.Split | utils/nim_auth.js:29 | `split(",")` gives at least one piece and no piece holds the separator |
| Text.ToLower | utils/validators.js:4 | lower-casing keeps the length and maps each character on its own: `A`-`Z` move to `a`-`z` by 32 code points and every other character is kept |
| Validators.KeepLabelChars | utils/validators.js:4 | the `[^a-z0-9-]` removal leaves only label characters and never lengthens the string |
| Validators.KeepLabelCharsSpec | utils/validators.js:4 | the removal keeps every label character, in order: the result is a subsequence of the input with the same count of each label character |
| Validators.KeepLabelCharsUnique | utils/validators.js:4 | any subsequence of the input made of label characters that keeps every label character is the removal's result |
| Validators.SanitizeSub | utils/validators.js:2-7 | a missing or empty name gives null; a result is at least 3 characters of `[a-z0-9-]`, taken in order from the lower-cased input; null otherwise means fewer than 3 label characters remain |
| Validators.SanitizeSubIdempotent | utils/validators.js:4-6 | normalising an accepted label again gives the same label |
| Validators.SanitizeSubFixedPoints | utils/validators.js:4-6 | a string is its own normalisation exactly when it is at least 3 label characters |
| ValidatorExamples.SanitizeSubMixedCaseExample | utils/validators.js:2-7 | `"My_Cool-Site!"` normalises to `"mycool-site"` |
| ValidatorExamples.SanitizeSubShortExample | utils/validators.js:5-6 | `"ab"` is rejected as shorter than three characters |
| ValidatorExamples.SanitizeSubDashExample | utils/validators.js:5-6 | `"---"` is accepted unchanged, since only the character set and the length are checked |
| Validators.IsValidEmailLocal | utils/validators.js:9-11 | a local part is valid exactly when it has 1 to 32 characters from `[A-Za-z0-9._-]` |
| Validators.DestinationEmailMatchesPattern | utils/validators.js:13-15 | the destination check holds exactly when the address has one `@` and no white space, a non-empty part before the `@`, and a `.` after it that is neither first nor last |
| Validators.DestinationScanMatches | utils/validators.js:13-15 | every address the check accepts matches `^[^@\s]+@[^@\s]+\.[^@\s]+$` read literally |
| Validators.PatternPassesScan | utils/validators.js:13-15 | every address matching that pattern is accepted by the check |
| Validators.IsValidDestinationEmail | utils/validators.js:13-15 | an accepted address has no white space and exactly one `@`, which is not its first character |
| Validators.ComposedAddressInjective | server.js:189 | two valid local parts that give the same `local@sub.root` address have the same local part and the same label |
| NimAuth.XorZero | utils/nim_auth.js:9 | the XOR of two character codes is 0 exactly when they are equal |
| NimAuth.DiffZero | utils/nim_auth.js:6-10 | the OR-accumulated XOR over the zero-padded codes is 0 exactly when every position agrees |
| NimAuth.SafeEqual | utils/nim_auth.js:4-12 | `safeEqual` is true exactly when both values are strings and they are equal |
| NimAuth.TrailingNulNeedsLengthCheck | utils/nim_auth.js:9-11 | `"a\0"` and `"a"` agree on every padded code, and only the final length comparison tells them apart |
| NimAuth.SafeEqualSymmetric | utils/nim_auth.js:4-12 | the comparison is symmetric |
| NimAuth.SafeEqualLoop | utils/nim_auth.js:6-11 | the loop runs exactly `max(|a|, |b|)` rounds, counted in characters, with no early exit, and answers string equality |
| NimAuth.SplitCredentials | utils/nim_auth.js:19-21 | without a colon there is no credential; otherwise the user has no colon and `user ":" pass` is the decoded string |
| NimAuth.SplitCredentialsRoundTrip | utils/nim_auth.js:19-21 | a colon-free user and any password split back into the same pair |
| NimAuth.AuthorizationHeader | utils/nim_auth.js:15 | a non-empty `authorization` header is taken first, otherwise a non-empty `Authorization` header; there is no header exactly when both are absent or empty, and a header taken is never empty |
| NimAuth.BasicSchemeAnyCase | utils/nim_auth.js:16 | the scheme test `HasBasicScheme` accepts `Basic `, `basic ` and `BASIC ` before any payload and rejects `Bearer ` and a bare `Basic` |
| NimAuth.ParseBasicAuth | utils/nim_auth.js:14-25 | credentials exist exactly when the header is present, names the Basic scheme in any letter case, and its decoded payload holds a colon |
| NimAuth.EmptyCredentialsHeader | utils/nim_auth.js:14-25 | a header whose payload decodes to `":"` gives an empty user and an empty password |
| NimAuth.Trims | utils/nim_auth.js:30 | the mapped list has one entry per item, the trim of that item |
| NimAuth.NonEmptySpec | utils/nim_auth.js:31 | `filter(Boolean)` keeps exactly the non-empty strings |
| NimAuth.IsProtectedNim | utils/nim_auth.js:27-33 | a protected NIM is non-blank once trimmed and equals one of the trimmed items of the comma-separated list |
| NimAuth.IsProtectedNimSpec | utils/nim_auth.js:27-33 | a NIM is protected exactly when its trim is non-empty and equals the trim of some comma-separated item |
| NimAuth.ProtectedIffListed | utils/nim_auth.js:27-33 | for a list written as items joined by commas, a NIM is protected exactly when its trim is non-empty and matches the trim of one of those items |
| NimAuth.EmptyListProtectsNothing | utils/nim_auth.js:28 | an empty or unset list protects no NIM |
| NimAuth.NimDecision | utils/nim_auth.js:36-44 | an unprotected NIM passes; missing credentials give "Credentials required for this NIM"; present credentials with an unset pair give the configuration error; otherwise it passes exactly when the credentials are the configured pair, and any other credentials give "Invalid credentials for this NIM" |
| NimAuth.AdminDecision | utils/nim_auth.js:51-54 | the admin decision never reports a configuration error, refuses missing credentials with "Admin credentials required", passes exactly when the credentials are the configured pair, and refuses any other credentials with "Invalid admin credentials" |
| NimAuth.EnforceNimAuth | utils/nim_auth.js:35-45 | the checks run in this order: an unprotected NIM passes; missing credentials give 401, even when the server has no pair configured; a missing pair gives the configuration error; otherwise it passes exactly when both fields match, and a mismatch gives 401 "Invalid credentials for this NIM" |
| NimAuth.RequireAdmin | utils/nim_auth.js:47-55 | the admin gate never reports a configuration error; missing credentials give "Admin credentials required"; it passes exactly when both fields equal the configured values, unset meaning empty, and any other credentials give "Invalid admin credentials" |
| NimAuth.AdminUnsetAcceptsEmptyCredentials | utils/nim_auth.js:47-55 | with the admin pair unset, empty credentials pass the admin gate |
| Students.FindFirst | utils/students.js:10 | `find` returns the first position whose code matches, or nothing when none matches |
| Students.CheckKey | utils/students.js:10-11 | the roster search is valid exactly when some code equals the key, and then carries the code and name of the first such entry |
| Students.CheckNim | utils/students.js:8-12 | the result is valid exactly when some roster code equals the trimmed input; it then carries the code and name of the first such entry |
| Students.CheckNimIgnoresSurroundingSpace | utils/students.js:9 | surrounding white space does not change the answer |
| Students.BlankNimIsInvalid | utils/students.js:9-11 | a missing or blank input is invalid when no roster code is empty |
| Storage.SubsOf | server.js:101 | the per-NIM query returns the subdomain records of that NIM and no others |
| Storage.SubsOfCounts | server.js:400 | the per-NIM query holds each of the NIM's subdomain records as often as it is stored, and nothing else |
| Storage.SubsOfOrdered | server.js:400 | the per-NIM query keeps the stored order: it is a subsequence of the collection |
| Storage.EmailsOf | server.js:401 | the per-NIM query returns the route records of that NIM and no others |
| Storage.EmailsOfCounts | server.js:186 | the per-NIM query holds each of the NIM's route records as often as it is stored, so its length is `countDocuments` |
| Storage.EmailsOfOrdered | server.js:401 | the per-NIM route query keeps the stored order |
| Storage.SubsWithout | server.js:462 | deleting a NIM's subdomains keeps exactly the other records, and removes as many records as the NIM had |
| Storage.EmailsWithout | server.js:461 | deleting a NIM's routes keeps exactly the other records, and removes as many records as the NIM had |
| Storage.SubsOfWithout | server.js:461-462 | deleting one NIM's records leaves every other NIM's records as they were, in order |
| Storage.SubsWithoutUnique | server.js:107-108 | deletion keeps names unique |
| Provisioning.NimGateValue | server.js:86-87 | the per-NIM gate's return value is truthy exactly when it refused, so `if (authResp) return;` stops exactly the refused requests |
| Provisioning.AdminGateValue | utils/nim_auth.js:47-55 | the admin gate's return value is truthy on both outcomes; it is `true` exactly when the gate passed |
| Provisioning.AdmitSubdomain | server.js:78-108 | create-subdomain's checks run in the handler's order, and each failed check sends its own refusal: 400 "nim & subdomain are required", 404 "NIM tidak valid", the gate's own 401 or 500, 400 for a bad label, a full quota and a taken name, each with the handler's message; a request passes only with both fields present, a known NIM, a clean label, fewer than 3 subdomains and a name no record holds |
| Provisioning.AdmitSubdomainExact | server.js:78-108 | the checks admit a request exactly when every one of them passes |
| Provisioning.CommitSubdomain | server.js:111-146 | one CNAME call; on failure the store is unchanged and a 500 is sent; on success exactly one record is appended with the provider's id and target, the owner is inserted only when absent, and the usage reported is the new count and what remains of 3 |
| Provisioning.CreateSubdomain | server.js:76-148 | a refused request makes no provider call and changes nothing; an admitted one makes exactly the CNAME call; a provider failure leaves the store unchanged |
| Provisioning.SubdomainCallIffAdmitted | server.js:78-111 | the provider is called exactly when every check has passed, and without a call nothing changes |
| Provisioning.SubdomainQuotaFullRefused | server.js:101-102 | a NIM holding 3 subdomains is refused with the quota message before any call |
| Provisioning.SubdomainNameTakenRefused | server.js:104-108 | a name held by any record is refused before any call |
| Provisioning.CheckEmailRequest | server.js:153-175 | the request-level checks of create-email run in the handler's order, and each failed check sends its own refusal: 400 for missing fields, 404 "NIM tidak valid", the gate's own response, then 400 with the local-part, destination and label messages; an admitted request has all four fields, a roster NIM (whose code and name it carries), a white-space-free destination and the clean label of its subdomain |
| Provisioning.CheckEmailRequestExact | server.js:153-175 | the request-level checks admit a request exactly when each of them passes |
| Provisioning.CheckEmailStore | server.js:181-193 | the store-level checks admit exactly when the NIM owns the label, holds fewer than 3 routes and the composed address is unused; the first failed check gives its 400: "Subdomain bukan milik anda.", then the route quota message, then "Alamat email ini sudah digunakan." |
| Provisioning.AdmitEmail | server.js:153-193 | create-email's checks run in the handler's order: a request-level refusal is sent as it is, and past those checks the ownership, quota and address checks refuse with their own 400 messages; a request passes only with an owned label, fewer than 3 routes and an unused address |
| Provisioning.AdmitEmailExact | server.js:153-193 | the checks admit a request exactly when every one of them passes |
| Provisioning.CommitEmail | server.js:196-223 | one route call carrying the lower-cased destination and the rule name; on failure the store is unchanged; on success exactly one record is appended, storing that destination and the provider's id, with the new usage |
| Provisioning.CreateEmail | server.js:151-225 | a refused request makes no provider call and changes nothing; a provider failure leaves the store unchanged; subdomains and owners never change |
| Provisioning.EmailCallIffAdmitted | server.js:153-197 | the provider is called exactly when every check has passed, and without a call nothing changes |
| Provisioning.EmailForeignSubdomainRefused | server.js:181-183 | a route under a label the NIM does not own is refused before any call |
| Provisioning.CreateSubdomainPreservesConsistent | server.js:101-141 | create-subdomain keeps every NIM within quota, names and addresses unique, every route under its owner's subdomain, and every owner recorded |
| Provisioning.CreateEmailPreservesConsistent | server.js:181-211 | create-email keeps the store consistent |
| Provisioning.CreateSubdomainPreservesQuotaAndUnique | server.js:101-108 | from any store within quota and with unique names and addresses, create-subdomain keeps it so, whatever the request and the answer |
| Provisioning.CreateEmailPreservesQuotaAndUnique | server.js:185-193 | from any store within quota and with unique names and addresses, create-email keeps it so |
| Reset.EntryFor | server.js:436-445 | an entry carries the record's key and is a failure exactly when the record has a provider id and the provider refused its deletion |
| Reset.CallsFor | server.js:435-459 | the deletions made are those of the records that have a provider id, one each and in record order: a subsequence of the deletion of every record, as long as the number of records with an id, holding each such record's deletion and no other |
| Reset.SweepAll | server.js:435-459 | one report entry per record, in order, each decided by that record alone; a record without a provider id counts as deleted and makes no call |
| Reset.FailedIffProviderRefused | server.js:436-445 | an entry is a failure exactly when the record has a provider id and the provider refused its deletion |
| Reset.SweepKeepsGoingAfterFailure | server.js:435-446 | after a refused first deletion, the later records are still attempted and reported |
| Reset.ResetBody | server.js:390-474 | a blank NIM gives 400 and an unknown one 404; a NIM without records changes nothing; a dry run or a missing confirm lists exactly the NIM's records and makes no call; a confirmed reset deletes routes first, then DNS records, reports every record and removes all of the NIM's records whatever the provider said |
| Reset.ResetSparesOthers | server.js:461-462 | a reset leaves every other NIM's records unchanged |
| Reset.ResetKeepsOwners | server.js:461-462 | a reset never touches the owner documents |
| Reset.ResetBodyPreservesConsistent | server.js:461-462 | a reset keeps the store consistent |
| Reset.ResetBodyPreservesQuotaAndUnique | server.js:461-462 | a reset only removes records, so it keeps every NIM within quota and names and addresses unique |
| Reset.AdminResetsPreserveQuotaAndUnique | server.js:387-478 | both the handler as written and the intended one keep the quota and uniqueness limits |
| Reset.AdminReset | server.js:387-478 | with the gate applied as intended, a refused admin check sends its 401 and changes nothing |
| Reset.AdminResetAsWritten | server.js:388 | as written, the store and the provider calls are those of the ungated body, whatever the admin gate decided |
| Reset.AdminResetAsWrittenPreservesConsistent | server.js:388 | the reset as written, whose gate never stops it, still keeps the store consistent |
| Reset.UnauthenticatedResetDeletes | utils/respond-express.js:6-8 | a confirmed reset request with no credentials gets its 401 and still deletes the record as written; the intended handler changes nothing |
| Reset.ConfirmedResetOfOneRecord | server.js:435-462 | a confirmed reset of an identity holding one subdomain makes exactly its DNS deletion and removes the record, whatever the provider answers |
| Reset.ConfirmedResetOfOne | server.js:435-462 | for any roster identity holding exactly one subdomain record with a provider id and no routes, a confirmed reset makes exactly that DNS deletion and leaves no subdomain record |
| AdminList.HugePageIsServerError | server.js:325-383 | `?page=1000000000000000000000` with the default limit is answered 500 with the database's error, whatever the rows |
| AdminList.LastServablePage | server.js:325-383 | with limit 100, page 92233720368547759 is still served and the next page is answered 500 |
| AdminList.ClampPage | server.js:326 | the page is at least 1, defaults to 1, and equals the input when the input is at least 1 |
| AdminList.ClampLimit | server.js:327 | the limit lies between 1 and 100, defaults to 20, and equals the input when the input is in range |
| AdminList.Window | server.js:358-359 | skip-then-limit keeps at most `l` rows, starting at row `k` |
| AdminList.RowOnPage | server.js:358-359 | row `j` is at position `j % l` of page `j / l + 1` |
| AdminList.AdjacentPages | server.js:358-359 | two consecutive pages together are the window of twice the size |
| AdminList.AdjacentPageTotals | server.js:358-377 | the totals of two consecutive pages add up to the totals of the window twice the size |
| AdminList.SubdomainSum | server.js:376 | the page's subdomain total is at least each row's count |
| AdminList.EmailSum | server.js:377 | the page's route total is at least each row's count |
| AdminList.SumsAppend | server.js:376-377 | the totals of adjacent runs of rows add up |
| AdminList.PageTotals | server.js:375-378 | the single loop computes both `reduce` totals |
| AdminList.ConsistentRowsWithinQuota | server.js:329-359 | on a consistent store, a page's totals are at most 3 per row |
| AdminList.AdminListSummary | server.js:264-383 | a refused admin check gives 401; an admitted request whose skip `(p-1)*l` is 2^63 or more gets the database's error with 500, and only then is an admitted request refused; otherwise the page and limit are the clamped inputs, the rows are those from `(p-1)*l` on, exactly `min(l, rows - (p-1)*l)` of them (none past the end), and the totals are their sums |
| Workflow.Handle | server.js:76-478 | each request is answered by its own endpoint: a create request is exactly that create handler behind the per-NIM gate built from its headers, and a reset is the handler as written or the intended one behind the admin gate; no owner is ever lost or renamed |
| Workflow.Run | server.js:124-132 | over any request sequence, an owner document once stored stays with the same name, as `$setOnInsert` promises |
| Workflow.RunPreservesConsistent | server.js:101-108 | from a consistent store, any sequence of create and reset requests, with any provider answers, leaves the store consistent, under either reading of the reset handler (as written or intended) |
| Workflow.RunPreservesQuotaAndUnique | server.js:101-108 | from any store in which every NIM is within quota and names and addresses are unique, whatever else holds of it, any sequence of create and reset requests with any provider answers keeps it so, under either reading of the reset handler |
| Workflow.RunAppend | server.js:76-478 | running two request sequences one after the other is running their concatenation |
| Workflow.QuotaNeverExceeded | server.js:101-102 | starting from an empty store, no NIM ever holds more than 3 subdomains or 3 routes, under either reading of the reset handler |

## Left out

- Provider HTTP calls (`utils/cf.js`): each call is a value in the trace. Its answer is a parameter (`Answer`) or a function of the call. JSON handling and transport errors are not modelled.
- Database connection (`utils/db.js`): the collections are sequences in an immutable `Store`. A failed database write is not modelled. The handlers' `catch` turns such a failure into a 500 after the provider call.
- Transport: the Express middleware, `utils/respond-express.js` (except for what its `unauthorized` returns), the 404 fallback and server start-up.
- Read-only endpoints: `health`, `validate-nim` and `list-usage`. They only count and read records.
- Base64 decoding in `parseBasicAuth`: it is the parameter `decode`. A decoding failure caught by the `try` is not modelled separately.
- The admin-list search, sort and aggregation (`$regex`, `$lookup`, `$sort`): these are database-engine semantics. The rows reach `AdminList.AdminListSummary` already filtered and ordered. `RowsFor` states what their counts are.
- Admin-list detail mode (`nim` query): this is a read-only lookup.
- `createdAt` timestamps, and the order of records by `createdAt`.
- `Text.ToLower`: lower-cases ASCII letters only. JavaScript's full Unicode case mapping (for example KELVIN SIGN to `k`) is not modelled. So `SanitizeSub` and the stored destination address are exact for ASCII input only.
- Characters: a Dafny `char` is a Unicode scalar value, not a UTF-16 code unit. A character outside the Basic Multilingual Plane is one `char` where JavaScript counts two code units, and a lone surrogate cannot be represented. No modelled result depends on this except `NimAuth.SafeEqualLoop`'s round count: it counts characters, so it equals JavaScript's code-unit count only for strings inside the Basic Multilingual Plane. Its equality verdict is unaffected. The length-checked character classes are ASCII, and every ECMAScript white-space character used by `trim` and `\s` lies in the Basic Multilingual Plane.
- Provider deletions: the answer is a function of the call, so two deletions of the same id get the same answer, and no answer depends on earlier calls. Every reset property holds for any such function. Answers that change from call to call are not modelled.
- `AdminList.AdminListSummary`: the page is an exact integer, not the double `parseInt` yields, and the skip `(p-1)*l` is exact. Near 2^63 the source's rounded double can fall on the other side of the bound; the model draws the line at the exact product.
- `NimAuth.SafeEqualLoop`: the round count is in characters, not UTF-16 code units. A character outside the Basic Multilingual Plane is one round here and two in JavaScript.
- `AdminList.ClampPage` and `AdminList.ClampLimit` take integers, so the `parseInt` → `NaN` path for non-numeric page and limit strings is not modelled.
- Request bodies are modelled as optional strings and booleans. Non-string JSON values, such as a numeric `nim` or an array `subdomain`, are not modelled.
- The roster is a sequence of string codes. The original JSON may hold numbers, which `String(x.nim)` renders.
- Concurrency: the quota and uniqueness checks are check-then-act. Two concurrent requests can both pass them. `Workflow.RunPreservesConsistent` and `Workflow.RunPreservesQuotaAndUnique` hold for sequential execution only.
- `Reset.AdminResetAsWritten`: states only the store and the calls. After the 401 has been sent, the later `ok(...)` of the handler fails on the already-sent response. That follow-on error is not modelled.
- The admin-list handler (server.js:265) tests the admin gate in the same way as admin reset. It only reads, so `AdminList.AdminListSummary` is modelled with the intended gate. The extra database reads after a refusal are not modelled.

## Findings

| source | as written | input that shows it | evidently intended | confidence | as-written member | corrected member |
|---|---|---|---|---|---|---|
| server.js:388 | `if (!requireAdmin(req, res)) return;`, but on refusal `requireAdmin` returns the value of `unauthorized(...)`, which is the response object (`res.status().set().json()` returns `res`), so the test is false and the handler goes on | POST /api/admin-reset with no `Authorization` header and body `{ nim: <a roster NIM that has records>, dryRun: false, confirm: true }`: the 401 is sent, then every route and DNS record of that NIM is deleted at the provider and in the store | a refused admin check ends the request and nothing is deleted | not executed | Reset.AdminResetAsWritten | Reset.AdminReset |

=== FILE: admin_list.dfy ===
/** The summary mode of GET /api/admin-list in `server.js`: behind the admin gate,
    one page of owner rows with their record counts, and the page's totals. The
    search filter and the sort order run inside the database, so the rows arrive
    here already filtered and ordered. */
module AdminList {
  import opened Wrappers
  import opened NimAuth
  import opened Storage

  /** One row of the aggregation: an owner and the sizes of its two lookups. */
  datatype OwnerRow = OwnerRow(nim: string, nama: string, subdomains: nat, emails: nat)

  /** `Math.max(1, parseInt(page, 10))`, the query defaulting to "1". */
  function ClampPage(page: Option<int>): (p: int)
    ensures p >= 1
    ensures page.None? ==> p == 1
    ensures page.Some? && page.value >= 1 ==> p == page.value
    ensures page.Some? && page.value < 1 ==> p == 1
  {
    var n := page.GetOr(1);
    if n < 1 then 1 else n
  }

  /** `Math.min(100, Math.max(1, parseInt(limit, 10)))`, the query defaulting to "20". */
  function ClampLimit(limit: Option<int>): (l: int)
    ensures 1 <= l <= 100
    ensures limit.None? ==> l == 20
    ensures limit.Some? && 1 <= limit.value <= 100 ==> l == limit.value
    ensures limit.Some? && limit.value < 1 ==> l == 1
    ensures limit.Some? && limit.value > 100 ==> l == 100
  {
    var n := limit.GetOr(20);
    if n < 1 then 1 else if n > 100 then 100 else n
  }

  /** The `$skip` stage. */
  function Skip(p: int, l: int): (k: nat)
    requires p >= 1 && l >= 1
    ensures k == (p - 1) * l
  {
    (p - 1) * l
  }

  /** `$skip: k` followed by `$limit: l`. */
  function Window<T>(rows: seq<T>, k: nat, l: nat): (w: seq<T>)
    ensures |w| == if k >= |rows| then 0 else if |rows| - k < l then |rows| - k else l
    ensures forall i :: 0 <= i < |w| ==> w[i] == rows[k + i]
  {
    if k >= |rows| then []
    else if |rows| - k < l then rows[k..]
    else rows[k..k + l]
  }

  /** Row `j` of the ordered result is row `j % l` of page `j / l + 1`: every row is
      on exactly the page the arithmetic assigns it. */
  lemma RowOnPage<T>(rows: seq<T>, l: nat, j: nat)
    requires 1 <= l <= 100 && j < |rows|
    ensures var p := j / l + 1;
      && Skip(p, l) <= j
      && j % l < |Window(rows, Skip(p, l), l)|
      && Window(rows, Skip(p, l), l)[j % l] == rows[j]
  {
    var p := j / l + 1;
    assert Skip(p, l) + j % l == j;
  }

  // ---------------------------------------------------------------------------
  // pageTotals
  // ---------------------------------------------------------------------------

  /** `rows.reduce((a, r) => a + (r.subdomains || 0), 0)`, a left fold. */
  function SubdomainSum(rows: seq<OwnerRow>): (s: nat)
    ensures forall i :: 0 <= i < |rows| ==> rows[i].subdomains <= s
  {
    if rows == [] then 0 else SubdomainSum(rows[..|rows| - 1]) + rows[|rows| - 1].subdomains
  }

  /** The same fold over `r.emails`. */
  function EmailSum(rows: seq<OwnerRow>): (s: nat)
    ensures forall i :: 0 <= i < |rows| ==> rows[i].emails <= s
  {
    if rows == [] then 0 else EmailSum(rows[..|rows| - 1]) + rows[|rows| - 1].emails
  }

  /** The totals of two adjacent runs of rows add up. */
  lemma {:induction false} SumsAppend(a: seq<OwnerRow>, b: seq<OwnerRow>)
    ensures SubdomainSum(a + b) == SubdomainSum(a) + SubdomainSum(b)
    ensures EmailSum(a + b) == EmailSum(a) + EmailSum(b)
    decreases |b|
  {
    if b == [] {
      assert a + b == a;
    } else {
      var b' := b[..|b| - 1];
      assert (a + b)[..|a + b| - 1] == a + b';
      assert (a + b)[|a + b| - 1] == b[|b| - 1];
      SumsAppend(a, b');
    }
  }

  /** The two `reduce` calls computed in one pass over the rows: an imperative
      reading of the folds, shown equal to them. The reply itself uses the folds. */
  method PageTotals(rows: seq<OwnerRow>) returns (subs: nat, mails: nat)
    ensures subs == SubdomainSum(rows) && mails == EmailSum(rows)
  {
    subs, mails := 0, 0;
    var i := 0;
    while i < |rows|
      invariant 0 <= i <= |rows|
      invariant subs == SubdomainSum(rows[..i]) && mails == EmailSum(rows[..i])
    {
      assert rows[..i + 1][..i] == rows[..i];
      subs := subs + rows[i].subdomains;
      mails := mails + rows[i].emails;
      i := i + 1;
    }
    assert rows[..i] == rows;
  }

  /** The totals of two consecutive pages add up to the totals of the window of
      twice the size. */
  lemma AdjacentPageTotals(rows: seq<OwnerRow>, p: int, l: int)
    requires p >= 1 && 1 <= l
    ensures SubdomainSum(Window(rows, Skip(p, l), 2 * l)) ==
            SubdomainSum(Window(rows, Skip(p, l), l)) + SubdomainSum(Window(rows, Skip(p + 1, l), l))
    ensures EmailSum(Window(rows, Skip(p, l), 2 * l)) ==
            EmailSum(Window(rows, Skip(p, l), l)) + EmailSum(Window(rows, Skip(p + 1, l), l))
  {
    AdjacentPages(rows, p, l);
    SumsAppend(Window(rows, Skip(p, l), l), Window(rows, Skip(p + 1, l), l));
  }

  /** A page's totals never exceed the per-identity quota times its row count
      when every row counts the records of a consistent store. */
  lemma {:induction false} TotalsWithinQuota(rows: seq<OwnerRow>)
    requires forall i :: 0 <= i < |rows| ==> rows[i].subdomains <= Quota && rows[i].emails <= Quota
    ensures SubdomainSum(rows) <= Quota * |rows| && EmailSum(rows) <= Quota * |rows|
    decreases |rows|
  {
    if rows != [] {
      var init := rows[..|rows| - 1];
      assert forall i :: 0 <= i < |init| ==> init[i] == rows[i];
      TotalsWithinQuota(init);
    }
  }

  /** The `$lookup`/`$size` stages: each owner's row counts its records in the store. */
  function RowsFor(store: Store, owners: seq<string>): (rows: seq<OwnerRow>)
    requires forall i :: 0 <= i < |owners| ==> owners[i] in store.owners
    ensures |rows| == |owners|
    ensures forall i :: 0 <= i < |owners| ==>
      rows[i] == OwnerRow(owners[i], store.owners[owners[i]],
                          |SubsOf(store.subs, owners[i])|, |EmailsOf(store.emails, owners[i])|)
  {
    seq(|owners|, i requires 0 <= i < |owners| =>
      OwnerRow(owners[i], store.owners[owners[i]], |SubsOf(store.subs, owners[i])|, |EmailsOf(store.emails, owners[i])|))
  }

  /** Rows of a consistent store stay within quota, so any page of them does. */
  lemma ConsistentRowsWithinQuota(store: Store, owners: seq<string>, k: nat, l: nat)
    requires Consistent(store)
    requires forall i :: 0 <= i < |owners| ==> owners[i] in store.owners
    ensures var page := Window(RowsFor(store, owners), k, l);
      SubdomainSum(page) <= Quota * |page| && EmailSum(page) <= Quota * |page|
  {
    var rows := RowsFor(store, owners);
    var page := Window(rows, k, l);
    assert forall i :: 0 <= i < |page| ==> page[i].subdomains <= Quota && page[i].emails <= Quota by {
      forall i | 0 <= i < |page|
        ensures page[i].subdomains <= Quota && page[i].emails <= Quota
      {
        assert page[i] == rows[k + i];
      }
    }
    TotalsWithinQuota(page);
  }

  // ---------------------------------------------------------------------------
  // The handler
  // ---------------------------------------------------------------------------

  datatype Reply =
    | Denied(status: int, message: string)
    | Summary(page: int, limit: int, totalOwners: nat, pageOwners: nat, data: seq<OwnerRow>,
              subdomainTotal: nat, emailTotal: nat)

  /** The largest `$skip` the database accepts is one below 2^63; a larger one
      makes the aggregation fail. */
  const SkipBound: nat := 0x8000_0000_0000_0000

  /** The summary reply for the ordered, filtered rows. `admin` is `requireAdmin`'s
      decision, which can only refuse with 401. `skipError` is the message the
      database raises for a `$skip` it cannot represent, which the `catch` sends
      with status 500. */
  function AdminListSummary(admin: Decision, page: Option<int>, limit: Option<int>, rows: seq<OwnerRow>,
                            skipError: string): (r: Reply)
    ensures admin != Pass ==> r.Denied?
    ensures admin.Unauthorized? ==> r == Denied(401, admin.message)
    // past the gate, only a skip beyond the database's 64-bit range fails
    ensures admin == Pass ==>
      (r.Denied? <==> Skip(ClampPage(page), ClampLimit(limit)) >= SkipBound)
    ensures admin == Pass && Skip(ClampPage(page), ClampLimit(limit)) >= SkipBound ==> r == Denied(500, skipError)
    ensures r.Summary? ==>
      && r.page == ClampPage(page) && r.limit == ClampLimit(limit)
      && r.totalOwners == |rows|
      && r.pageOwners == |r.data| <= r.limit
      // `$limit` is reached whenever enough rows follow the skipped ones
      && |r.data| == (var k := (r.page - 1) * r.limit;
                      if k >= |rows| then 0 else if |rows| - k < r.limit then |rows| - k else r.limit)
      && (forall i :: 0 <= i < |r.data| ==>
            0 <= (r.page - 1) * r.limit + i < |rows| && r.data[i] == rows[(r.page - 1) * r.limit + i])
      && r.subdomainTotal == SubdomainSum(r.data) && r.emailTotal == EmailSum(r.data)
  {
    if admin != Pass then Denied(if admin.Unauthorized? then 401 else 500, admin.message)
    else
      var p := ClampPage(page);
      var l := ClampLimit(limit);
      if Skip(p, l) >= SkipBound then Denied(500, skipError)
      else
        var data := Window(rows, Skip(p, l), l);
        Summary(p, l, |rows|, |data|, data, SubdomainSum(data), EmailSum(data))
  }

  /** `?page=1000000000000000000000` with the default limit of 20: the skip is far
      beyond 2^63, so an admitted request gets the database's error as a 500
      however few rows there are. */
  lemma HugePageIsServerError(rows: seq<OwnerRow>, skipError: string)
    ensures AdminListSummary(Pass, Some(1_000_000_000_000_000_000_000), None, rows, skipError) == Denied(500, skipError)
  {
  }

  /** The last page before the bound is still served: with the limit at 100, page
      92233720368547759 skips 9223372036854775800 rows, which is below 2^63. */
  lemma LastServablePage(rows: seq<OwnerRow>, skipError: string)
    ensures AdminListSummary(Pass, Some(92233720368547759), Some(100), rows, skipError).Summary?
    ensures AdminListSummary(Pass, Some(92233720368547760), Some(100), rows, skipError) == Denied(500, skipError)
  {
  }

  /** Consecutive pages tile the rows: page `p` followed by page `p + 1` is the
      window of twice the size. */
  lemma {:induction false} AdjacentPages(rows: seq<OwnerRow>, p: int, l: int)
    requires p >= 1 && 1 <= l
    ensures Window(rows, Skip(p, l), l) + Window(rows, Skip(p + 1, l), l) == Window(rows, Skip(p, l), 2 * l)
  {
    var k := Skip(p, l);
    assert Skip(p + 1, l) == k + l;
    var a := Window(rows, k, l);
    var b := Window(rows, k + l, l);
    var c := Window(rows, k, 2 * l);
    assert |a + b| == |c|;
    forall i | 0 <= i < |c|
      ensures (a + b)[i] == c[i]
    {
      if i < |a| {
        assert (a + b)[i] == rows[k + i];
      } else {
        assert (a + b)[i] == b[i - |a|] == rows[k + l + (i - l)];
      }
    }
  }
}

=== FILE: nim_auth.dfy ===
/** The access gate of `utils/nim_auth.js`: the constant-time string comparison,
    HTTP Basic credential parsing (section 2 of RFC 7617), the protected-identity
    list, and the two gate decisions. Environment variables are a map from name to
    value; Base64 decoding is the parameter `decode`. */
module NimAuth {
  import opened Wrappers
  import opened Text

  // ---------------------------------------------------------------------------
  // Bitwise `|` and `^` on the non-negative integers the comparison produces
  // ---------------------------------------------------------------------------

  function Xor(x: nat, y: nat): nat
    decreases x + y
  {
    if x == 0 then y
    else if y == 0 then x
    else 2 * Xor(x / 2, y / 2) + (if x % 2 == y % 2 then 0 else 1)
  }

  function Or(x: nat, y: nat): nat
    decreases x + y
  {
    if x == 0 then y
    else if y == 0 then x
    else 2 * Or(x / 2, y / 2) + (if x % 2 == 1 || y % 2 == 1 then 1 else 0)
  }

  lemma {:induction false} XorZero(x: nat, y: nat)
    ensures Xor(x, y) == 0 <==> x == y
    decreases x + y
  {
    if x != 0 && y != 0 {
      XorZero(x / 2, y / 2);
    }
  }

  lemma {:induction false} OrZero(x: nat, y: nat)
    ensures Or(x, y) == 0 <==> x == 0 && y == 0
    decreases x + y
  {
    if x != 0 && y != 0 {
      OrZero(x / 2, y / 2);
    }
  }

  // ---------------------------------------------------------------------------
  // safeEqual
  // ---------------------------------------------------------------------------

  /** `s.charCodeAt(i) || 0`: the character's code, or 0 past the end. */
  function CodeAt(s: string, i: nat): nat {
    if i < |s| then s[i] as nat else 0
  }

  function Max(x: nat, y: nat): nat {
    if x < y then y else x
  }

  /** The accumulator `res` after the first `n` rounds of the comparison loop. */
  function Diff(a: string, b: string, n: nat): nat {
    if n == 0 then 0 else Or(Diff(a, b, n - 1), Xor(CodeAt(a, n - 1), CodeAt(b, n - 1)))
  }

  /** The accumulator stays 0 exactly while the padded codes agree. */
  lemma {:induction false} DiffZero(a: string, b: string, n: nat)
    ensures Diff(a, b, n) == 0 <==> forall k :: 0 <= k < n ==> CodeAt(a, k) == CodeAt(b, k)
  {
    if n > 0 {
      DiffZero(a, b, n - 1);
      OrZero(Diff(a, b, n - 1), Xor(CodeAt(a, n - 1), CodeAt(b, n - 1)));
      XorZero(CodeAt(a, n - 1), CodeAt(b, n - 1));
    }
  }

  /** Agreement of the padded codes over the longer length, plus equal lengths, is
      string equality. */
  lemma PaddedCodesEqual(x: string, y: string)
    requires |x| == |y|
    requires forall k :: 0 <= k < |x| ==> CodeAt(x, k) == CodeAt(y, k)
    ensures x == y
  {
    forall k | 0 <= k < |x|
      ensures x[k] == y[k]
    {
      assert CodeAt(x, k) == CodeAt(y, k);
    }
  }

  /** `safeEqual(a, b)`: `None` stands for a value that is not a string. The result
      is string equality, although the loop never stops early. */
  function SafeEqual(a: Option<string>, b: Option<string>): (r: bool)
    ensures r <==> a.Some? && b.Some? && a.value == b.value
  {
    if a.None? || b.None? then false
    else
      var x, y := a.value, b.value;
      var n := Max(|x|, |y|);
      DiffZero(x, y, n);
      if Diff(x, y, n) == 0 && |x| == |y| then
        PaddedCodesEqual(x, y);
        true
      else false
  }

  /** Without the final length check, a trailing NUL character would compare equal
      to its absence: the padded codes of "a\0" and "a" agree. */
  lemma TrailingNulNeedsLengthCheck()
    ensures Diff("a\0", "a", 2) == 0
    ensures !SafeEqual(Some("a\0"), Some("a"))
  {
    DiffZero("a\0", "a", 2);
  }

  lemma SafeEqualSymmetric(a: Option<string>, b: Option<string>)
    ensures SafeEqual(a, b) == SafeEqual(b, a)
  {
  }

  /** The comparison loop as written: it runs `max(|a|, |b|)` rounds whatever the
      position of the first difference, and its verdict is string equality. */
  method SafeEqualLoop(a: Option<string>, b: Option<string>) returns (r: bool, rounds: nat)
    ensures r <==> a.Some? && b.Some? && a.value == b.value
    ensures a.Some? && b.Some? ==> rounds == Max(|a.value|, |b.value|)
    ensures a.None? || b.None? ==> rounds == 0
  {
    if a.None? || b.None? {
      return false, 0;
    }
    var x, y := a.value, b.value;
    var len := Max(|x|, |y|);
    var res := 0;
    var i := 0;
    rounds := 0;
    while i < len
      invariant i <= len
      invariant res == Diff(x, y, i)
      invariant rounds == i
    {
      res := Or(res, Xor(CodeAt(x, i), CodeAt(y, i)));
      i := i + 1;
      rounds := rounds + 1;
    }
    DiffZero(x, y, len);
    r := res == 0 && |x| == |y|;
    if r {
      PaddedCodesEqual(x, y);
    }
  }

  // ---------------------------------------------------------------------------
  // parseBasicAuth
  // ---------------------------------------------------------------------------

  datatype Credentials = Credentials(user: string, pass: string)

  /** `headers["authorization"] || headers["Authorization"]`: an empty value counts
      as absent. */
  function AuthorizationHeader(headers: map<string, string>): (h: Option<string>)
    ensures h.Some? ==> h.value != []
    ensures "authorization" in headers && headers["authorization"] != [] ==> h == Some(headers["authorization"])
    ensures h.Some? ==>
      || ("authorization" in headers && h == Some(headers["authorization"]))
      || ("Authorization" in headers && h == Some(headers["Authorization"]))
    ensures h.None? <==>
      && ("authorization" !in headers || headers["authorization"] == [])
      && ("Authorization" !in headers || headers["Authorization"] == [])
  {
    if "authorization" in headers && headers["authorization"] != [] then Some(headers["authorization"])
    else if "Authorization" in headers && headers["Authorization"] != [] then Some(headers["Authorization"])
    else None
  }

  /** `h.toLowerCase().startsWith("basic ")`. */
  predicate HasBasicScheme(h: string) {
    |h| >= 6 && ToLower(h)[..6] == "basic "
  }

  /** The scheme test ignores letter case and looks at nothing past the space:
      `Basic`, `basic` and `BASIC` all name it, other schemes do not. */
  lemma BasicSchemeAnyCase(rest: string)
    ensures HasBasicScheme("Basic " + rest) && HasBasicScheme("basic " + rest) && HasBasicScheme("BASIC " + rest)
    ensures !HasBasicScheme("Bearer " + rest) && !HasBasicScheme("Basic")
  {
    ToLowerAppend("Basic ", rest);
    ToLowerAppend("basic ", rest);
    ToLowerAppend("BASIC ", rest);
    ToLowerAppend("Bearer ", rest);
    assert ToLower("Bearer " + rest)[1] == 'e' != "basic "[1];
  }

  /** The credential text after the scheme: `decode(h.slice(6).trim())`. */
  function Payload(h: string, decode: string -> string): string
    requires |h| >= 6
  {
    decode(Trim(h[6..]))
  }

  /** The user-id/password split at the first colon. */
  function SplitCredentials(decoded: string): (r: Option<Credentials>)
    ensures r.None? <==> ':' !in decoded
    ensures r.Some? ==> ':' !in r.value.user && r.value.user + ":" + r.value.pass == decoded
  {
    if ':' in decoded then
      var i := IndexOf(decoded, ':');
      assert decoded == decoded[..i] + ":" + decoded[i + 1..];
      Some(Credentials(decoded[..i], decoded[i + 1..]))
    else None
  }

  /** Section 2 of RFC 7617 forbids a colon in the user-id, so a credential pair
      `user ":" pass` is split back into exactly that pair. */
  lemma SplitCredentialsRoundTrip(c: Credentials)
    requires ':' !in c.user
    ensures SplitCredentials(c.user + ":" + c.pass) == Some(c)
  {
    IndexOfAfterPiece(c.user, ':', c.pass);
    var d := c.user + ":" + c.pass;
    assert d == c.user + [':'] + c.pass;
    assert d[..|c.user|] == c.user && d[|c.user| + 1..] == c.pass;
  }

  /** `parseBasicAuth`: credentials exist exactly when the header is present, names
      the Basic scheme in any letter case, and its decoded payload holds a colon. */
  function ParseBasicAuth(headers: map<string, string>, decode: string -> string): (r: Option<Credentials>)
    ensures r.Some? <==>
      var h := AuthorizationHeader(headers);
      h.Some? && HasBasicScheme(h.value) && ':' in Payload(h.value, decode)
    ensures r.Some? ==>
      var h := AuthorizationHeader(headers).value;
      && ':' !in r.value.user
      && r.value.user + ":" + r.value.pass == Payload(h, decode)
  {
    match AuthorizationHeader(headers)
    case None => None
    case Some(h) =>
      if !HasBasicScheme(h) then None
      else SplitCredentials(Payload(h, decode))
  }

  // ---------------------------------------------------------------------------
  // isProtectedNim
  // ---------------------------------------------------------------------------

  /** `process.env[key] || ""`. */
  function EnvOr(env: map<string, string>, key: string): string {
    if key in env then env[key] else ""
  }

  /** `.map((s) => s.trim())`. */
  function Trims(parts: seq<string>): (r: seq<string>)
    ensures |r| == |parts|
    ensures forall k :: 0 <= k < |parts| ==> r[k] == Trim(parts[k])
  {
    if parts == [] then [] else [Trim(parts[0])] + Trims(parts[1..])
  }

  /** Some item of `parts`, once trimmed, is `x`. */
  predicate Listed(parts: seq<string>, x: string) {
    x in Trims(parts)
  }

  /** `.filter(Boolean)`: the non-empty strings, in order. */
  function NonEmpty(items: seq<string>): seq<string> {
    if items == [] then []
    else if items[0] == [] then NonEmpty(items[1..])
    else [items[0]] + NonEmpty(items[1..])
  }

  /** The filter keeps exactly the non-empty items. */
  lemma {:induction false} NonEmptySpec(items: seq<string>)
    ensures forall x :: x in NonEmpty(items) <==> x != [] && x in items
    decreases |items|
  {
    if items != [] {
      NonEmptySpec(items[1..]);
      assert items == [items[0]] + items[1..];
    }
  }

  /** `.map((s) => s.trim()).filter(Boolean)`. */
  function NonEmptyTrimmed(parts: seq<string>): seq<string> {
    NonEmpty(Trims(parts))
  }

  /** `isProtectedNim`: the trimmed identity is one of the non-empty trimmed items of
      the comma-separated list. */
  function IsProtectedNim(protectedList: string, nim: string): (r: bool)
    ensures r ==> Trim(nim) != [] && Trim(nim) in Trims(Split(protectedList, ','))
  {
    NonEmptySpec(Trims(Split(protectedList, ',')));
    Trim(nim) in NonEmptyTrimmed(Split(protectedList, ','))
  }

  /** An identity is protected exactly when it is non-blank and equals, once trimmed,
      some trimmed item of the list. */
  lemma IsProtectedNimSpec(protectedList: string, nim: string)
    ensures IsProtectedNim(protectedList, nim) <==> Trim(nim) != [] && Listed(Split(protectedList, ','), Trim(nim))
  {
    NonEmptySpec(Trims(Split(protectedList, ',')));
  }

  /** An empty or unset list protects nothing. */
  lemma EmptyListProtectsNothing(nim: string)
    ensures !IsProtectedNim("", nim)
  {
    assert Split("", ',') == [""];
    assert Trim("") == [];
    assert NonEmptyTrimmed([""]) == [];
  }

  /** A list written as comma-joined items protects exactly the identities that
      equal one of the non-blank items once both are trimmed. */
  lemma ProtectedIffListed(items: seq<string>, nim: string)
    requires |items| >= 1
    requires forall k :: 0 <= k < |items| ==> ',' !in items[k]
    ensures IsProtectedNim(Join(items, ','), nim) <==> Trim(nim) != [] && Listed(items, Trim(nim))
  {
    SplitJoin(items, ',');
    IsProtectedNimSpec(Join(items, ','), nim);
  }

  // ---------------------------------------------------------------------------
  // The gate decisions
  // ---------------------------------------------------------------------------

  /** What a gate lets through: the request goes on, is answered 401, or is answered
      500 because the server lacks configuration. */
  datatype Decision = Pass | Unauthorized(message: string) | ConfigError(message: string)

  function NimUserKey(nim: string): string { "NIM_" + nim + "_USER" }
  function NimPassKey(nim: string): string { "NIM_" + nim + "_PASS" }

  /** The branches of `enforceNimAuthOrResponse` once its inputs are known: whether
      the identity is protected, the parsed credentials and the configured pair. */
  function NimDecision(protected: bool, creds: Option<Credentials>, u: string, p: string): (d: Decision)
    ensures !protected ==> d == Pass
    ensures protected && creds.None? ==> d == Unauthorized("Credentials required for this NIM")
    ensures protected && creds.Some? && (u == [] || p == []) ==>
      d == ConfigError("Server auth for this NIM not configured")
    ensures protected && creds.Some? && u != [] && p != [] && creds != Some(Credentials(u, p)) ==>
      d == Unauthorized("Invalid credentials for this NIM")
    ensures d == Pass <==> !protected || (u != [] && p != [] && creds == Some(Credentials(u, p)))
  {
    if !protected then Pass
    else if creds.None? then Unauthorized("Credentials required for this NIM")
    else if u == [] || p == [] then ConfigError("Server auth for this NIM not configured")
    else if !SafeEqual(Some(creds.value.user), Some(u)) || !SafeEqual(Some(creds.value.pass), Some(p)) then
      Unauthorized("Invalid credentials for this NIM")
    else Pass
  }

  /** `enforceNimAuthOrResponse` as a decision. */
  function EnforceNimAuth(env: map<string, string>, headers: map<string, string>,
                          decode: string -> string, nim: string): (d: Decision)
    ensures !IsProtectedNim(EnvOr(env, "PROTECTED_NIMS"), nim) ==> d == Pass
    ensures IsProtectedNim(EnvOr(env, "PROTECTED_NIMS"), nim) && ParseBasicAuth(headers, decode).None? ==>
      d == Unauthorized("Credentials required for this NIM")
    ensures IsProtectedNim(EnvOr(env, "PROTECTED_NIMS"), nim) && ParseBasicAuth(headers, decode).Some? &&
            (EnvOr(env, NimUserKey(nim)) == [] || EnvOr(env, NimPassKey(nim)) == []) ==>
      d == ConfigError("Server auth for this NIM not configured")
    ensures IsProtectedNim(EnvOr(env, "PROTECTED_NIMS"), nim) && ParseBasicAuth(headers, decode).Some? &&
            EnvOr(env, NimUserKey(nim)) != [] && EnvOr(env, NimPassKey(nim)) != [] &&
            ParseBasicAuth(headers, decode) != Some(Credentials(EnvOr(env, NimUserKey(nim)), EnvOr(env, NimPassKey(nim)))) ==>
      d == Unauthorized("Invalid credentials for this NIM")
    ensures d == Pass <==>
      || !IsProtectedNim(EnvOr(env, "PROTECTED_NIMS"), nim)
      || (&& EnvOr(env, NimUserKey(nim)) != [] && EnvOr(env, NimPassKey(nim)) != []
          && ParseBasicAuth(headers, decode) == Some(Credentials(EnvOr(env, NimUserKey(nim)), EnvOr(env, NimPassKey(nim)))))
  {
    NimDecision(IsProtectedNim(EnvOr(env, "PROTECTED_NIMS"), nim), ParseBasicAuth(headers, decode),
                EnvOr(env, NimUserKey(nim)), EnvOr(env, NimPassKey(nim)))
  }

  /** `requireAdmin` as a decision: credentials must parse and equal the configured
      pair, an unset variable reading as the empty string. */
  function RequireAdmin(env: map<string, string>, headers: map<string, string>,
                        decode: string -> string): (d: Decision)
    ensures !d.ConfigError?
    ensures ParseBasicAuth(headers, decode).None? ==> d == Unauthorized("Admin credentials required")
    ensures ParseBasicAuth(headers, decode).Some? &&
            ParseBasicAuth(headers, decode) != Some(Credentials(EnvOr(env, "ADMIN_USER"), EnvOr(env, "ADMIN_PASS"))) ==>
      d == Unauthorized("Invalid admin credentials")
    ensures d == Pass <==>
      ParseBasicAuth(headers, decode) == Some(Credentials(EnvOr(env, "ADMIN_USER"), EnvOr(env, "ADMIN_PASS")))
  {
    AdminDecision(ParseBasicAuth(headers, decode), EnvOr(env, "ADMIN_USER"), EnvOr(env, "ADMIN_PASS"))
  }

  /** The branches of `requireAdmin` once the credentials and the configured pair
      are known. */
  function AdminDecision(creds: Option<Credentials>, u: string, p: string): (d: Decision)
    ensures !d.ConfigError?
    ensures creds.None? ==> d == Unauthorized("Admin credentials required")
    ensures creds.Some? && creds != Some(Credentials(u, p)) ==> d == Unauthorized("Invalid admin credentials")
    ensures d == Pass <==> creds == Some(Credentials(u, p))
  {
    if creds.None? then Unauthorized("Admin credentials required")
    else if !SafeEqual(Some(creds.value.user), Some(u)) || !SafeEqual(Some(creds.value.pass), Some(p)) then
      Unauthorized("Invalid admin credentials")
    else Pass
  }

  lemma BasicSchemeExample(token: string)
    ensures HasBasicScheme("Basic " + token)
    ensures ("Basic " + token)[6..] == token
  {
    assert ToLower("Basic " + token)[..6] == "basic ";
  }

  lemma EmptyPairExample()
    ensures SplitCredentials(":") == Some(Credentials("", ""))
  {
    SplitCredentialsRoundTrip(Credentials("", ""));
    assert "" + ":" + "" == ":";
  }

  /** A Basic header whose token decodes to the single character ":" (the token
      `Og==`) carries an empty user and an empty password. */
  lemma EmptyCredentialsHeader(decode: string -> string, token: string)
    requires NoSpace(token) && decode(token) == ":"
    ensures ParseBasicAuth(map["authorization" := "Basic " + token], decode) == Some(Credentials("", ""))
  {
    var headers := map["authorization" := "Basic " + token];
    assert AuthorizationHeader(headers) == Some("Basic " + token);
    BasicSchemeExample(token);
    assert Payload("Basic " + token, decode) == ":";
    EmptyPairExample();
  }

  /** With the administrator pair unset, empty credentials pass the administrative
      gate. */
  lemma AdminUnsetAcceptsEmptyCredentials(env: map<string, string>, decode: string -> string, token: string)
    requires "ADMIN_USER" !in env && "ADMIN_PASS" !in env
    requires NoSpace(token) && decode(token) == ":"
    ensures RequireAdmin(env, map["authorization" := "Basic " + token], decode) == Pass
  {
    EmptyCredentialsHeader(decode, token);
  }
}

=== FILE: provisioning.dfy ===
/** The create handlers of `server.js` as store transitions. A handler takes the
    request, the store and the provider's answer to the one call it may make, and
    gives back the new store, the provider calls it made and the response it sent. */
module Provisioning {
  import opened Wrappers
  import opened Text
  import opened Validators
  import opened NimAuth
  import opened Students
  import opened Storage

  /** What a handler reads besides the request and the store: the process
      environment, the roster, `ROOT_DOMAIN` and the base64 decoder. */
  datatype Config = Config(env: map<string, string>, roster: seq<Student>, root: string, decode: string -> string)

  /** The provider's answer to one call: the `id` and `content` of the created
      object, or the message of the error it raised. */
  datatype Answer = Ok(id: string, content: string) | Err(message: string)

  /** A call to the DNS and email-routing provider. */
  datatype Call =
    | CreateCname(name: string)
    | CreateRoute(to: string, destination: string, ruleName: string)
    | DeleteRoute(ruleId: string)
    | DeleteRecord(recordId: string)

  /** Outcome of one deletion in the reset report. */
  datatype Outcome = Deleted | Failed(error: string)

  /** One report line: the `email` or `fqdn` and what happened to its provider object. */
  datatype ReportEntry = ReportEntry(key: string, outcome: Outcome)

  /** One line of the reset preview: the `email` or `fqdn` and its provider id. */
  datatype Target = Target(key: string, id: string)

  /** The response a handler sends. */
  datatype Response =
    | Refused(status: int, message: string)
    | SubdomainCreated(fqdn: string, subdomains: int, remaining: int)
    | EmailCreated(email: string, emails: int, remaining: int)
    | NothingToReset(nim: string, nama: string, dryRun: bool, confirm: bool)
    | ResetPreview(nim: string, nama: string, subdomainTargets: seq<Target>, emailTargets: seq<Target>)
    | ResetDone(nim: string, nama: string, emailReport: seq<ReportEntry>, subdomainReport: seq<ReportEntry>,
                emailsDeleted: nat, subdomainsDeleted: nat)

  /** The result of handling one request. */
  datatype Step = Step(store: Store, calls: seq<Call>, response: Response)

  // ---------------------------------------------------------------------------
  // What the gates hand back to the handlers
  // ---------------------------------------------------------------------------

  /** The JavaScript values the gates return: the response object a refusal was
      written to, a boolean, or `null`. */
  datatype GateValue = ResponseObject | BoolValue(b: bool) | NullValue

  /** JavaScript truthiness: every object is truthy. */
  predicate Truthy(v: GateValue) {
    match v
    case ResponseObject => true
    case BoolValue(b) => b
    case NullValue => false
  }

  /** `enforceNimAuthOrResponse` returns `null` to let the request through and the
      response object otherwise, so `if (authResp) return;` stops exactly the
      refused requests. */
  function NimGateValue(d: Decision): (v: GateValue)
    ensures Truthy(v) <==> d != Pass
  {
    if d == Pass then NullValue else ResponseObject
  }

  /** `requireAdmin` returns `true` to let the request through and, on refusal, the
      response object `unauthorized` returns, which is truthy as well. */
  function AdminGateValue(d: Decision): (v: GateValue)
    ensures Truthy(v)
    ensures d == Pass <==> v == BoolValue(true)
  {
    if d == Pass then BoolValue(true) else ResponseObject
  }

  /** The response a refusing gate has written: 401 for `unauthorized`, 500 for the
      missing configuration. */
  function GateResponse(d: Decision): (r: Response)
    requires d != Pass
    ensures r.Refused? && r.status in {401, 500}
    ensures r.status == 500 <==> d.ConfigError?
  {
    match d
    case Unauthorized(m) => Refused(401, m)
    case ConfigError(m) => Refused(500, m)
  }

  /** `!x` for a request field: missing or the empty string. */
  predicate Blank(x: Option<string>) {
    x.None? || x.value == []
  }

  function Refuse(store: Store, status: int, message: string): Step {
    Step(store, [], Refused(status, message))
  }

  /** What the checks a create handler makes before calling the provider decide:
      the refusal already sent, or the identity and the normalised label to use. */
  datatype Admission = Deny(response: Response) | Admit(id: string, nama: string, sub: string)

  // ---------------------------------------------------------------------------
  // POST /api/create-subdomain
  // ---------------------------------------------------------------------------

  /** The full name of a subdomain: `${sub}.${ROOT}`. */
  function Fqdn(sub: string, root: string): string {
    sub + "." + root
  }

  /** The per-identity gate the create handlers consult: `enforceNimAuthOrResponse`
      on the request's headers. The check chains below take it as a parameter. */
  function NimGate(cfg: Config, headers: map<string, string>): string -> Decision {
    id => EnforceNimAuth(cfg.env, headers, cfg.decode, id)
  }

  /** Every check create-subdomain makes before it calls the provider passes:
      both fields present, a known identity, the per-identity gate, a clean label,
      room in the quota and a name no record holds. */
  predicate SubdomainAdmitted(cfg: Config, gate: string -> Decision, nim: Option<string>,
                              subdomain: Option<string>, store: Store) {
    && !Blank(nim) && !Blank(subdomain)
    && CheckNim(cfg.roster, nim).Valid?
    && gate(CheckNim(cfg.roster, nim).nim) == Pass
    && SanitizeSub(subdomain).Some?
    && |SubsOf(store.subs, CheckNim(cfg.roster, nim).nim)| < Quota
    && !FqdnTaken(store.subs, Fqdn(SanitizeSub(subdomain).value, cfg.root))
  }

  /** The checks of create-subdomain, in the handler's order. */
  function AdmitSubdomain(cfg: Config, gate: string -> Decision, nim: Option<string>,
                          subdomain: Option<string>, store: Store): (a: Admission)
    ensures a.Admit? ==>
      && !Blank(nim) && !Blank(subdomain)
      && CheckNim(cfg.roster, nim) == Valid(a.id, a.nama)
      && SanitizeSub(subdomain) == Some(a.sub)
      && |SubsOf(store.subs, a.id)| < Quota
      && !FqdnTaken(store.subs, Fqdn(a.sub, cfg.root))
    ensures a.Deny? ==> a.response.Refused? && a.response.status in {400, 401, 404, 500}
    ensures Blank(nim) || Blank(subdomain) ==> a == Deny(Refused(400, "nim & subdomain are required"))
    // each later check, once reached, refuses with the handler's own response
    ensures !Blank(nim) && !Blank(subdomain) ==>
      var v := CheckNim(cfg.roster, nim);
      && (v.Invalid? ==> a == Deny(Refused(404, "NIM tidak valid")))
      && (v.Valid? && gate(v.nim) != Pass ==> a == Deny(GateResponse(gate(v.nim))))
      && (v.Valid? && gate(v.nim) == Pass && SanitizeSub(subdomain).None? ==>
            a == Deny(Refused(400, "Subdomain tidak valid. Gunakan a-z, 0-9, dash; min 3 karakter.")))
      && (v.Valid? && gate(v.nim) == Pass && SanitizeSub(subdomain).Some? ==>
            && (|SubsOf(store.subs, v.nim)| >= Quota ==>
                  a == Deny(Refused(400, "Kuota subdomain sudah penuh (maks 3).")))
            && (|SubsOf(store.subs, v.nim)| < Quota && FqdnTaken(store.subs, Fqdn(SanitizeSub(subdomain).value, cfg.root)) ==>
                  a == Deny(Refused(400, "Subdomain sudah dipakai."))))
  {
    if Blank(nim) || Blank(subdomain) then Deny(Refused(400, "nim & subdomain are required"))
    else match CheckNim(cfg.roster, nim)
    case Invalid => Deny(Refused(404, "NIM tidak valid"))
    case Valid(id, nama) =>
      var decision := gate(id);
      if Truthy(NimGateValue(decision)) then Deny(GateResponse(decision))
      else match SanitizeSub(subdomain)
      case None => Deny(Refused(400, "Subdomain tidak valid. Gunakan a-z, 0-9, dash; min 3 karakter."))
      case Some(sub) =>
        if |SubsOf(store.subs, id)| >= Quota then Deny(Refused(400, "Kuota subdomain sudah penuh (maks 3)."))
        else if FqdnTaken(store.subs, Fqdn(sub, cfg.root)) then Deny(Refused(400, "Subdomain sudah dipakai."))
        else Admit(id, nama, sub)
  }

  /** The checks admit a request exactly when every one of them passes. */
  lemma AdmitSubdomainExact(cfg: Config, gate: string -> Decision, nim: Option<string>,
                            subdomain: Option<string>, store: Store)
    ensures AdmitSubdomain(cfg, gate, nim, subdomain, store).Admit? <==>
            SubdomainAdmitted(cfg, gate, nim, subdomain, store)
  {
    var a := AdmitSubdomain(cfg, gate, nim, subdomain, store);
    if Blank(nim) || Blank(subdomain) {
      assert a.Deny?;
    } else {
      var check := CheckNim(cfg.roster, nim);
      if check.Invalid? {
        assert a.Deny?;
      } else if gate(check.nim) != Pass {
        assert Truthy(NimGateValue(gate(check.nim)));
        assert a.Deny?;
      } else if SanitizeSub(subdomain).None? {
        assert a.Deny?;
      } else {
        var sub := SanitizeSub(subdomain).value;
        var full := |SubsOf(store.subs, check.nim)| >= Quota;
        var taken := FqdnTaken(store.subs, Fqdn(sub, cfg.root));
        if full || taken {
          assert a.Deny?;
        } else {
          assert a == Admit(check.nim, check.nama, sub);
        }
      }
    }
  }

  /** The part of create-subdomain after the checks: the CNAME call, the insert,
      the owner upsert and the usage report. */
  function CommitSubdomain(store: Store, id: string, nama: string, sub: string, root: string,
                           answer: Answer): (r: Step)
    requires |SubsOf(store.subs, id)| < Quota
    ensures r.calls == [CreateCname(sub)]
    ensures r.store.emails == store.emails
    ensures answer.Err? ==> r.store == store && r.response == Refused(500, answer.message)
    ensures answer.Ok? ==>
      && r.store.subs == store.subs + [SubRecord(id, sub, Fqdn(sub, root), answer.id, answer.content)]
      && r.response.SubdomainCreated?
      && r.response.fqdn == Fqdn(sub, root)
      // the reported usage is the identity's new count, still within quota
      && r.response.subdomains == |SubsOf(r.store.subs, id)| <= Quota
      && r.response.remaining == Quota - |SubsOf(r.store.subs, id)|
      // the owner document is inserted when absent and otherwise left alone
      && r.store.owners.Keys == store.owners.Keys + {id}
      && (forall n :: n in store.owners ==> r.store.owners[n] == store.owners[n])
      && (id !in store.owners ==> r.store.owners[id] == nama)
  {
    var used := |SubsOf(store.subs, id)|;
    var fqdn := Fqdn(sub, root);
    match answer
    case Err(message) => Step(store, [CreateCname(sub)], Refused(500, message))
    case Ok(recordId, content) =>
      var record := SubRecord(id, sub, fqdn, recordId, content);
      var owners := if id in store.owners then store.owners else store.owners[id := nama];
      SubsOfAppend(store.subs, record, id);
      Step(Store(store.subs + [record], store.emails, owners), [CreateCname(sub)],
           SubdomainCreated(fqdn, used + 1, Quota - (used + 1)))
  }

  /** The create-subdomain handler; `answer` is the provider's answer to the CNAME
      creation, consulted only if the call is made. */
  function CreateSubdomain(cfg: Config, gate: string -> Decision, nim: Option<string>,
                           subdomain: Option<string>, store: Store, answer: Answer): (r: Step)
    // without admission: no provider call, no change, a refusal
    ensures AdmitSubdomain(cfg, gate, nim, subdomain, store).Deny? ==>
      r == Step(store, [], AdmitSubdomain(cfg, gate, nim, subdomain, store).response)
    // with admission: exactly one CNAME call, then the commit
    ensures AdmitSubdomain(cfg, gate, nim, subdomain, store).Admit? ==>
      var a := AdmitSubdomain(cfg, gate, nim, subdomain, store);
      && r.calls == [CreateCname(a.sub)]
      && r == CommitSubdomain(store, a.id, a.nama, a.sub, cfg.root, answer)
    // a provider failure leaves every collection as it was
    ensures answer.Err? ==> r.store == store && r.response.Refused?
    ensures r.store.emails == store.emails
  {
    match AdmitSubdomain(cfg, gate, nim, subdomain, store)
    case Deny(response) => Step(store, [], response)
    case Admit(id, nama, sub) => CommitSubdomain(store, id, nama, sub, cfg.root, answer)
  }

  // ---------------------------------------------------------------------------
  // POST /api/create-email
  // ---------------------------------------------------------------------------

  /** The address a route is created for: `${local}@${sub}.${ROOT}`. */
  function Address(local: string, sub: string, root: string): string {
    local + "@" + Fqdn(sub, root)
  }

  /** The rule name: `route-${nim}-${sub}-${local}`. */
  function RuleName(nim: string, sub: string, local: string): string {
    "route-" + nim + "-" + sub + "-" + local
  }

  /** The checks of create-email that read only the request pass: all four fields
      present, a known identity, the per-identity gate, a valid local part and
      destination, and a clean label. */
  predicate EmailRequestAdmitted(cfg: Config, gate: string -> Decision, nim: Option<string>, local: Option<string>,
                                 subdomain: Option<string>, destination: Option<string>) {
    && !Blank(nim) && !Blank(local) && !Blank(subdomain) && !Blank(destination)
    && CheckNim(cfg.roster, nim).Valid?
    && gate(CheckNim(cfg.roster, nim).nim) == Pass
    && IsValidEmailLocal(local.value)
    && IsValidDestinationEmail(destination.value)
    && SanitizeSub(subdomain).Some?
  }

  /** The checks of create-email that read the store pass: the identity owns the
      label, has room in the quota, and no route holds the address. */
  predicate EmailStoreAdmitted(id: string, sub: string, local: string, store: Store, root: string) {
    && Owns(store.subs, id, sub)
    && |EmailsOf(store.emails, id)| < Quota
    && !EmailTaken(store.emails, Address(local, sub, root))
  }

  /** Every check create-email makes before it calls the provider passes. */
  predicate EmailAdmitted(cfg: Config, gate: string -> Decision, nim: Option<string>, local: Option<string>,
                          subdomain: Option<string>, destination: Option<string>, store: Store) {
    && EmailRequestAdmitted(cfg, gate, nim, local, subdomain, destination)
    && EmailStoreAdmitted(CheckNim(cfg.roster, nim).nim, SanitizeSub(subdomain).value, local.value, store, cfg.root)
  }

  /** The checks of create-email on the request, in the handler's order. */
  function CheckEmailRequest(cfg: Config, gate: string -> Decision, nim: Option<string>, local: Option<string>,
                             subdomain: Option<string>, destination: Option<string>): (a: Admission)
    ensures a.Admit? ==>
      && !Blank(nim) && !Blank(local) && !Blank(subdomain) && !Blank(destination)
      && CheckNim(cfg.roster, nim) == Valid(a.id, a.nama)
      && SanitizeSub(subdomain) == Some(a.sub)
      && NoSpace(destination.value)
    ensures a.Deny? ==> a.response.Refused? && a.response.status in {400, 401, 404, 500}
    ensures Blank(nim) || Blank(local) || Blank(subdomain) || Blank(destination) ==>
      a == Deny(Refused(400, "nim, local, subdomain, destination are required"))
    // each later check, once reached, refuses with the handler's own response
    ensures !Blank(nim) && !Blank(local) && !Blank(subdomain) && !Blank(destination) ==>
      var v := CheckNim(cfg.roster, nim);
      && (v.Invalid? ==> a == Deny(Refused(404, "NIM tidak valid")))
      && (v.Valid? && gate(v.nim) != Pass ==> a == Deny(GateResponse(gate(v.nim))))
      && (v.Valid? && gate(v.nim) == Pass && !IsValidEmailLocal(local.value) ==>
            a == Deny(Refused(400, "Local-part email tidak valid.")))
      && (v.Valid? && gate(v.nim) == Pass && IsValidEmailLocal(local.value) && !IsValidDestinationEmail(destination.value) ==>
            a == Deny(Refused(400, "Destination email tidak valid.")))
      && (v.Valid? && gate(v.nim) == Pass && IsValidEmailLocal(local.value) && IsValidDestinationEmail(destination.value)
          && SanitizeSub(subdomain).None? ==>
            a == Deny(Refused(400, "Subdomain tidak valid.")))
  {
    if Blank(nim) || Blank(local) || Blank(subdomain) || Blank(destination) then
      Deny(Refused(400, "nim, local, subdomain, destination are required"))
    else match CheckNim(cfg.roster, nim)
    case Invalid => Deny(Refused(404, "NIM tidak valid"))
    case Valid(id, nama) =>
      var decision := gate(id);
      if Truthy(NimGateValue(decision)) then Deny(GateResponse(decision))
      else if !IsValidEmailLocal(local.value) then Deny(Refused(400, "Local-part email tidak valid."))
      else if !IsValidDestinationEmail(destination.value) then Deny(Refused(400, "Destination email tidak valid."))
      else match SanitizeSub(subdomain)
      case None => Deny(Refused(400, "Subdomain tidak valid."))
      case Some(sub) => Admit(id, nama, sub)
  }

  /** The request checks admit a request exactly when every one of them passes. */
  lemma CheckEmailRequestExact(cfg: Config, gate: string -> Decision, nim: Option<string>, local: Option<string>,
                               subdomain: Option<string>, destination: Option<string>)
    ensures CheckEmailRequest(cfg, gate, nim, local, subdomain, destination).Admit? <==>
            EmailRequestAdmitted(cfg, gate, nim, local, subdomain, destination)
  {
    var a := CheckEmailRequest(cfg, gate, nim, local, subdomain, destination);
    if && !Blank(nim) && !Blank(local) && !Blank(subdomain) && !Blank(destination)
       && CheckNim(cfg.roster, nim).Valid? {
      var id := CheckNim(cfg.roster, nim).nim;
      if gate(id) != Pass {
        assert a.Deny?;
      } else if !IsValidEmailLocal(local.value) || !IsValidDestinationEmail(destination.value) {
        assert a.Deny?;
      } else {
        assert a.Admit? <==> SanitizeSub(subdomain).Some?;
      }
    } else {
      assert a.Deny?;
    }
  }

  /** The checks of create-email on the store, in the handler's order. */
  function CheckEmailStore(id: string, nama: string, sub: string, local: string, store: Store, root: string): (a: Admission)
    ensures a.Admit? <==> EmailStoreAdmitted(id, sub, local, store, root)
    ensures a.Admit? ==> a == Admit(id, nama, sub)
    ensures a.Deny? ==> a.response.Refused? && a.response.status == 400
    ensures !Owns(store.subs, id, sub) ==> a == Deny(Refused(400, "Subdomain bukan milik anda."))
    ensures Owns(store.subs, id, sub) && |EmailsOf(store.emails, id)| >= Quota ==>
      a == Deny(Refused(400, "Kuota email routing sudah penuh (maks 3)."))
    ensures Owns(store.subs, id, sub) && |EmailsOf(store.emails, id)| < Quota && EmailTaken(store.emails, Address(local, sub, root)) ==>
      a == Deny(Refused(400, "Alamat email ini sudah digunakan."))
  {
    if !Owns(store.subs, id, sub) then Deny(Refused(400, "Subdomain bukan milik anda."))
    else if |EmailsOf(store.emails, id)| >= Quota then Deny(Refused(400, "Kuota email routing sudah penuh (maks 3)."))
    else if EmailTaken(store.emails, Address(local, sub, root)) then
      Deny(Refused(400, "Alamat email ini sudah digunakan."))
    else Admit(id, nama, sub)
  }

  /** The checks of create-email, in the handler's order: those on the request,
      then those on the store. */
  function AdmitEmail(cfg: Config, gate: string -> Decision, nim: Option<string>, local: Option<string>,
                      subdomain: Option<string>, destination: Option<string>, store: Store): (a: Admission)
    ensures a.Admit? ==>
      && !Blank(nim) && !Blank(local) && !Blank(subdomain) && !Blank(destination)
      && CheckNim(cfg.roster, nim) == Valid(a.id, a.nama)
      && SanitizeSub(subdomain) == Some(a.sub)
      && NoSpace(destination.value)
      && Owns(store.subs, a.id, a.sub)
      && |EmailsOf(store.emails, a.id)| < Quota
      && !EmailTaken(store.emails, Address(local.value, a.sub, cfg.root))
    ensures a.Deny? ==> a.response.Refused? && a.response.status in {400, 401, 404, 500}
    ensures Blank(nim) || Blank(local) || Blank(subdomain) || Blank(destination) ==>
      a == Deny(Refused(400, "nim, local, subdomain, destination are required"))
    // a refusal on the request is sent as it is; past those checks, the store's
    // checks decide with their own messages
    ensures CheckEmailRequest(cfg, gate, nim, local, subdomain, destination).Deny? ==>
      a == CheckEmailRequest(cfg, gate, nim, local, subdomain, destination)
    ensures EmailRequestAdmitted(cfg, gate, nim, local, subdomain, destination) ==>
      var id := CheckNim(cfg.roster, nim).nim;
      var sub := SanitizeSub(subdomain).value;
      && (!Owns(store.subs, id, sub) ==> a == Deny(Refused(400, "Subdomain bukan milik anda.")))
      && (Owns(store.subs, id, sub) && |EmailsOf(store.emails, id)| >= Quota ==>
            a == Deny(Refused(400, "Kuota email routing sudah penuh (maks 3).")))
      && (Owns(store.subs, id, sub) && |EmailsOf(store.emails, id)| < Quota
          && EmailTaken(store.emails, Address(local.value, sub, cfg.root)) ==>
            a == Deny(Refused(400, "Alamat email ini sudah digunakan.")))
  {
    match CheckEmailRequest(cfg, gate, nim, local, subdomain, destination)
    case Deny(response) => Deny(response)
    case Admit(id, nama, sub) => CheckEmailStore(id, nama, sub, local.value, store, cfg.root)
  }

  /** The checks admit a request exactly when every one of them passes. */
  lemma AdmitEmailExact(cfg: Config, gate: string -> Decision, nim: Option<string>, local: Option<string>,
                        subdomain: Option<string>, destination: Option<string>, store: Store)
    ensures AdmitEmail(cfg, gate, nim, local, subdomain, destination, store).Admit? <==>
            EmailAdmitted(cfg, gate, nim, local, subdomain, destination, store)
  {
    var q := CheckEmailRequest(cfg, gate, nim, local, subdomain, destination);
    CheckEmailRequestExact(cfg, gate, nim, local, subdomain, destination);
    if q.Admit? {
      assert q.id == CheckNim(cfg.roster, nim).nim && q.sub == SanitizeSub(subdomain).value;
      assert AdmitEmail(cfg, gate, nim, local, subdomain, destination, store)
          == CheckEmailStore(q.id, q.nama, q.sub, local.value, store, cfg.root);
    } else {
      assert AdmitEmail(cfg, gate, nim, local, subdomain, destination, store).Deny?;
    }
  }

  /** The part of create-email after the checks: the route call, the insert and
      the usage report. */
  function CommitEmail(store: Store, id: string, sub: string, local: string, destination: string, root: string,
                       answer: Answer): (r: Step)
    requires |EmailsOf(store.emails, id)| < Quota
    requires NoSpace(destination)
    // the destination is forwarded and stored lower-cased; trimming changes
    // nothing because a valid destination holds no white space
    ensures r.calls == [CreateRoute(Address(local, sub, root), ToLower(destination), RuleName(id, sub, local))]
    ensures r.store.subs == store.subs && r.store.owners == store.owners
    ensures answer.Err? ==> r.store == store && r.response == Refused(500, answer.message)
    ensures answer.Ok? ==>
      && r.store.emails == store.emails + [EmailRecord(id, Address(local, sub, root), sub, ToLower(destination), answer.id)]
      && r.response.EmailCreated?
      && r.response.email == Address(local, sub, root)
      && r.response.emails == |EmailsOf(r.store.emails, id)| <= Quota
      && r.response.remaining == Quota - |EmailsOf(r.store.emails, id)|
  {
    var used := |EmailsOf(store.emails, id)|;
    var email := Address(local, sub, root);
    var dest := ToLower(Trim(destination));
    var call := CreateRoute(email, dest, RuleName(id, sub, local));
    match answer
    case Err(message) => Step(store, [call], Refused(500, message))
    case Ok(ruleId, _) =>
      var record := EmailRecord(id, email, sub, dest, ruleId);
      EmailsOfAppend(store.emails, record, id);
      Step(Store(store.subs, store.emails + [record], store.owners), [call],
           EmailCreated(email, used + 1, Quota - (used + 1)))
  }

  /** The create-email handler; `answer` is the provider's answer to the route
      creation, consulted only if the call is made. */
  function CreateEmail(cfg: Config, gate: string -> Decision, nim: Option<string>, local: Option<string>,
                       subdomain: Option<string>, destination: Option<string>, store: Store, answer: Answer): (r: Step)
    ensures AdmitEmail(cfg, gate, nim, local, subdomain, destination, store).Deny? ==>
      r == Step(store, [], AdmitEmail(cfg, gate, nim, local, subdomain, destination, store).response)
    ensures AdmitEmail(cfg, gate, nim, local, subdomain, destination, store).Admit? ==>
      var a := AdmitEmail(cfg, gate, nim, local, subdomain, destination, store);
      && |r.calls| == 1 && r.calls[0].CreateRoute?
      && r == CommitEmail(store, a.id, a.sub, local.value, destination.value, cfg.root, answer)
    ensures answer.Err? ==> r.store == store && r.response.Refused?
    ensures r.store.subs == store.subs && r.store.owners == store.owners
  {
    match AdmitEmail(cfg, gate, nim, local, subdomain, destination, store)
    case Deny(response) => Step(store, [], response)
    case Admit(id, _, sub) => CommitEmail(store, id, sub, local.value, destination.value, cfg.root, answer)
  }

  // ---------------------------------------------------------------------------
  // No provider call before every check has passed
  // ---------------------------------------------------------------------------

  /** Create-subdomain calls the provider exactly when every check passes, and a
      request that makes no call changes nothing. */
  lemma SubdomainCallIffAdmitted(cfg: Config, gate: string -> Decision, nim: Option<string>,
                                 subdomain: Option<string>, store: Store, answer: Answer)
    ensures var r := CreateSubdomain(cfg, gate, nim, subdomain, store, answer);
      && (r.calls != [] <==> SubdomainAdmitted(cfg, gate, nim, subdomain, store))
      && (r.calls == [] ==> r.store == store && r.response.Refused?)
  {
    var a := AdmitSubdomain(cfg, gate, nim, subdomain, store);
    var r := CreateSubdomain(cfg, gate, nim, subdomain, store, answer);
    AdmitSubdomainExact(cfg, gate, nim, subdomain, store);
    if a.Admit? {
      assert r.calls == [CreateCname(a.sub)];
    } else {
      assert r == Step(store, [], a.response);
    }
  }

  /** Create-email calls the provider exactly when every check passes, and a
      request that makes no call changes nothing. */
  lemma EmailCallIffAdmitted(cfg: Config, gate: string -> Decision, nim: Option<string>, local: Option<string>,
                             subdomain: Option<string>, destination: Option<string>, store: Store, answer: Answer)
    ensures var r := CreateEmail(cfg, gate, nim, local, subdomain, destination, store, answer);
      && (r.calls != [] <==> EmailAdmitted(cfg, gate, nim, local, subdomain, destination, store))
      && (r.calls == [] ==> r.store == store && r.response.Refused?)
  {
    var a := AdmitEmail(cfg, gate, nim, local, subdomain, destination, store);
    var r := CreateEmail(cfg, gate, nim, local, subdomain, destination, store, answer);
    assert r.calls != [] <==> a.Admit? by {
      if a.Admit? {
        assert |r.calls| == 1;
      } else {
        assert r == Step(store, [], a.response);
      }
    }
    assert r.calls == [] ==> r.store == store && r.response.Refused?;
    AdmitEmailExact(cfg, gate, nim, local, subdomain, destination, store);
  }

  /** An identity that already holds three subdomains is refused before the provider
      is called, whatever label it asks for. */
  lemma SubdomainQuotaFullRefused(cfg: Config, gate: string -> Decision, nim: Option<string>,
                                  subdomain: Option<string>, store: Store, answer: Answer)
    requires !Blank(nim) && !Blank(subdomain) && CheckNim(cfg.roster, nim).Valid?
    requires gate(CheckNim(cfg.roster, nim).nim) == Pass && SanitizeSub(subdomain).Some?
    requires |SubsOf(store.subs, CheckNim(cfg.roster, nim).nim)| >= Quota
    ensures CreateSubdomain(cfg, gate, nim, subdomain, store, answer)
         == Step(store, [], Refused(400, "Kuota subdomain sudah penuh (maks 3)."))
  {
  }

  /** A name some record already holds is refused before the provider is called,
      whoever holds it. */
  lemma SubdomainNameTakenRefused(cfg: Config, gate: string -> Decision, nim: Option<string>,
                                  subdomain: Option<string>, store: Store, answer: Answer)
    requires !Blank(nim) && !Blank(subdomain) && CheckNim(cfg.roster, nim).Valid?
    requires gate(CheckNim(cfg.roster, nim).nim) == Pass && SanitizeSub(subdomain).Some?
    requires |SubsOf(store.subs, CheckNim(cfg.roster, nim).nim)| < Quota
    requires FqdnTaken(store.subs, Fqdn(SanitizeSub(subdomain).value, cfg.root))
    ensures CreateSubdomain(cfg, gate, nim, subdomain, store, answer)
         == Step(store, [], Refused(400, "Subdomain sudah dipakai."))
  {
  }

  /** A route under a label the identity does not own is refused before the
      provider is called. */
  lemma EmailForeignSubdomainRefused(cfg: Config, gate: string -> Decision, nim: Option<string>, local: Option<string>,
                                     subdomain: Option<string>, destination: Option<string>, store: Store, answer: Answer)
    requires !Blank(nim) && !Blank(local) && !Blank(subdomain) && !Blank(destination)
    requires CheckNim(cfg.roster, nim).Valid? && gate(CheckNim(cfg.roster, nim).nim) == Pass
    requires IsValidEmailLocal(local.value) && IsValidDestinationEmail(destination.value)
    requires SanitizeSub(subdomain).Some?
    requires !Owns(store.subs, CheckNim(cfg.roster, nim).nim, SanitizeSub(subdomain).value)
    ensures CreateEmail(cfg, gate, nim, local, subdomain, destination, store, answer)
         == Step(store, [], Refused(400, "Subdomain bukan milik anda."))
  {
  }

  // ---------------------------------------------------------------------------
  // The store invariant across the create handlers
  // ---------------------------------------------------------------------------

  /** Appending a subdomain record keeps every existing ownership. */
  lemma OwnsAppend(subs: seq<SubRecord>, x: SubRecord, nim: string, sub: string)
    requires Owns(subs, nim, sub)
    ensures Owns(subs + [x], nim, sub)
  {
    var s :| s in subs && s.nim == nim && s.sub == sub;
    assert s in subs + [x];
  }

  /** Committing a subdomain that passed the quota and name checks keeps the
      limits. */
  lemma CommitSubdomainPreservesQuotaAndUnique(store: Store, id: string, nama: string, sub: string, root: string,
                                               answer: Answer)
    requires QuotaAndUnique(store)
    requires |SubsOf(store.subs, id)| < Quota
    requires !FqdnTaken(store.subs, Fqdn(sub, root))
    ensures QuotaAndUnique(CommitSubdomain(store, id, nama, sub, root, answer).store)
  {
    var r := CommitSubdomain(store, id, nama, sub, root, answer);
    if answer.Ok? {
      var x := SubRecord(id, sub, Fqdn(sub, root), answer.id, answer.content);
      assert r.store.subs == store.subs + [x];
      forall n
        ensures |SubsOf(r.store.subs, n)| <= Quota
      {
        SubsOfAppend(store.subs, x, n);
      }
      forall i, j | 0 <= i < j < |r.store.subs|
        ensures r.store.subs[i].fqdn != r.store.subs[j].fqdn
      {
        if j == |store.subs| {
          assert r.store.subs[i] in store.subs;
        } else {
          assert r.store.subs[i] == store.subs[i] && r.store.subs[j] == store.subs[j];
        }
      }
    }
  }

  /** Committing a subdomain that passed the quota and name checks keeps the store
      consistent. */
  lemma CommitSubdomainPreservesConsistent(store: Store, id: string, nama: string, sub: string, root: string,
                                           answer: Answer)
    requires Consistent(store)
    requires |SubsOf(store.subs, id)| < Quota
    requires !FqdnTaken(store.subs, Fqdn(sub, root))
    ensures Consistent(CommitSubdomain(store, id, nama, sub, root, answer).store)
  {
    var r := CommitSubdomain(store, id, nama, sub, root, answer);
    CommitSubdomainPreservesQuotaAndUnique(store, id, nama, sub, root, answer);
    if answer.Ok? {
      var x := SubRecord(id, sub, Fqdn(sub, root), answer.id, answer.content);
      assert r.store.subs == store.subs + [x];
      forall e | e in r.store.emails
        ensures Owns(r.store.subs, e.nim, e.subdomain)
      {
        OwnsAppend(store.subs, x, e.nim, e.subdomain);
      }
    }
  }

  /** Committing a route that passed the quota and address checks keeps the
      limits. */
  lemma CommitEmailPreservesQuotaAndUnique(store: Store, id: string, sub: string, local: string, destination: string,
                                           root: string, answer: Answer)
    requires QuotaAndUnique(store)
    requires |EmailsOf(store.emails, id)| < Quota
    requires NoSpace(destination)
    requires !EmailTaken(store.emails, Address(local, sub, root))
    ensures QuotaAndUnique(CommitEmail(store, id, sub, local, destination, root, answer).store)
  {
    var r := CommitEmail(store, id, sub, local, destination, root, answer);
    if answer.Ok? {
      var x := EmailRecord(id, Address(local, sub, root), sub, ToLower(destination), answer.id);
      assert r.store.emails == store.emails + [x];
      forall n
        ensures |EmailsOf(r.store.emails, n)| <= Quota
      {
        EmailsOfAppend(store.emails, x, n);
      }
      forall i, j | 0 <= i < j < |r.store.emails|
        ensures r.store.emails[i].email != r.store.emails[j].email
      {
        if j == |store.emails| {
          assert r.store.emails[i] in store.emails;
        } else {
          assert r.store.emails[i] == store.emails[i] && r.store.emails[j] == store.emails[j];
        }
      }
    }
  }

  /** Committing a route that passed the ownership, quota and address checks keeps
      the store consistent. */
  lemma CommitEmailPreservesConsistent(store: Store, id: string, sub: string, local: string, destination: string,
                                       root: string, answer: Answer)
    requires Consistent(store)
    requires |EmailsOf(store.emails, id)| < Quota
    requires NoSpace(destination)
    requires Owns(store.subs, id, sub)
    requires !EmailTaken(store.emails, Address(local, sub, root))
    ensures Consistent(CommitEmail(store, id, sub, local, destination, root, answer).store)
  {
    CommitEmailPreservesQuotaAndUnique(store, id, sub, local, destination, root, answer);
  }

  /** Create-subdomain keeps the limits, whatever the request and the provider's
      answer; ownership plays no part in that. */
  lemma CreateSubdomainPreservesQuotaAndUnique(cfg: Config, gate: string -> Decision, nim: Option<string>,
                                               subdomain: Option<string>, store: Store, answer: Answer)
    requires QuotaAndUnique(store)
    ensures QuotaAndUnique(CreateSubdomain(cfg, gate, nim, subdomain, store, answer).store)
  {
    var a := AdmitSubdomain(cfg, gate, nim, subdomain, store);
    if a.Admit? {
      assert CreateSubdomain(cfg, gate, nim, subdomain, store, answer)
          == CommitSubdomain(store, a.id, a.nama, a.sub, cfg.root, answer);
      CommitSubdomainPreservesQuotaAndUnique(store, a.id, a.nama, a.sub, cfg.root, answer);
    } else {
      assert CreateSubdomain(cfg, gate, nim, subdomain, store, answer).store == store;
    }
  }

  /** Create-email keeps the limits, whatever the request and the provider's
      answer. */
  lemma CreateEmailPreservesQuotaAndUnique(cfg: Config, gate: string -> Decision, nim: Option<string>,
                                           local: Option<string>, subdomain: Option<string>,
                                           destination: Option<string>, store: Store, answer: Answer)
    requires QuotaAndUnique(store)
    ensures QuotaAndUnique(CreateEmail(cfg, gate, nim, local, subdomain, destination, store, answer).store)
  {
    var a := AdmitEmail(cfg, gate, nim, local, subdomain, destination, store);
    if a.Admit? {
      assert CreateEmail(cfg, gate, nim, local, subdomain, destination, store, answer)
          == CommitEmail(store, a.id, a.sub, local.value, destination.value, cfg.root, answer);
      CommitEmailPreservesQuotaAndUnique(store, a.id, a.sub, local.value, destination.value, cfg.root, answer);
    } else {
      assert CreateEmail(cfg, gate, nim, local, subdomain, destination, store, answer).store == store;
    }
  }

  /** Create-subdomain keeps the store consistent, whatever the request and the
      provider's answer. */
  lemma CreateSubdomainPreservesConsistent(cfg: Config, gate: string -> Decision, nim: Option<string>,
                                           subdomain: Option<string>, store: Store, answer: Answer)
    requires Consistent(store)
    ensures Consistent(CreateSubdomain(cfg, gate, nim, subdomain, store, answer).store)
  {
    var a := AdmitSubdomain(cfg, gate, nim, subdomain, store);
    if a.Admit? {
      assert CreateSubdomain(cfg, gate, nim, subdomain, store, answer)
          == CommitSubdomain(store, a.id, a.nama, a.sub, cfg.root, answer);
      CommitSubdomainPreservesConsistent(store, a.id, a.nama, a.sub, cfg.root, answer);
    } else {
      assert CreateSubdomain(cfg, gate, nim, subdomain, store, answer).store == store;
    }
  }

  /** Create-email keeps the store consistent, whatever the request and the
      provider's answer. */
  lemma CreateEmailPreservesConsistent(cfg: Config, gate: string -> Decision, nim: Option<string>,
                                       local: Option<string>, subdomain: Option<string>,
                                       destination: Option<string>, store: Store, answer: Answer)
    requires Consistent(store)
    ensures Consistent(CreateEmail(cfg, gate, nim, local, subdomain, destination, store, answer).store)
  {
    var a := AdmitEmail(cfg, gate, nim, local, subdomain, destination, store);
    if a.Admit? {
      assert CreateEmail(cfg, gate, nim, local, subdomain, destination, store, answer)
          == CommitEmail(store, a.id, a.sub, local.value, destination.value, cfg.root, answer);
      CommitEmailPreservesConsistent(store, a.id, a.sub, local.value, destination.value, cfg.root, answer);
    } else {
      assert CreateEmail(cfg, gate, nim, local, subdomain, destination, store, answer).store == store;
    }
  }
}

=== FILE: reset.dfy ===
/** POST /api/admin-reset of `server.js`: behind the admin gate, preview or delete
    every subdomain and email route of one identity. The provider's answers to the
    deletions are a function of the call, so the sweep's behaviour on any mix of
    successes and failures can be stated. */
module Reset {
  import opened Wrappers
  import opened Text
  import opened NimAuth
  import opened Students
  import opened Storage
  import opened Provisioning

  /** Which provider objects a sweep deletes. */
  datatype Kind = Routes | Records

  function DeleteCall(kind: Kind, id: string): Call {
    match kind
    case Routes => DeleteRoute(id)
    case Records => DeleteRecord(id)
  }

  /** `subs.map((s) => ({ fqdn, cf_record_id }))`. */
  function SubTargets(subs: seq<SubRecord>): (t: seq<Target>)
    ensures |t| == |subs|
    ensures forall i :: 0 <= i < |subs| ==> t[i] == Target(subs[i].fqdn, subs[i].recordId)
  {
    seq(|subs|, i requires 0 <= i < |subs| => Target(subs[i].fqdn, subs[i].recordId))
  }

  /** `mails.map((e) => ({ email, cf_rule_id }))`. */
  function EmailTargets(emails: seq<EmailRecord>): (t: seq<Target>)
    ensures |t| == |emails|
    ensures forall i :: 0 <= i < |emails| ==> t[i] == Target(emails[i].email, emails[i].ruleId)
  {
    seq(|emails|, i requires 0 <= i < |emails| => Target(emails[i].email, emails[i].ruleId))
  }

  /** The report line for one record: without a provider id it counts as deleted and
      no call is made; otherwise the provider's answer to the deletion decides. */
  function EntryFor(t: Target, kind: Kind, provider: Call -> Answer): (e: ReportEntry)
    ensures e.key == t.key
    ensures e.outcome.Failed? <==> t.id != [] && provider(DeleteCall(kind, t.id)).Err?
  {
    if t.id == [] then ReportEntry(t.key, Deleted)
    else match provider(DeleteCall(kind, t.id))
      case Ok(_, _) => ReportEntry(t.key, Deleted)
      case Err(message) => ReportEntry(t.key, Failed(message))
  }

  /** How many records carry a provider id. */
  function WithIdCount(ts: seq<Target>): nat {
    if ts == [] then 0 else (if ts[0].id != [] then 1 else 0) + WithIdCount(ts[1..])
  }

  /** The deletion of every record, id or not, in record order. */
  function EveryDelete(ts: seq<Target>, kind: Kind): (ds: seq<Call>)
    ensures |ds| == |ts|
    ensures forall i :: 0 <= i < |ts| ==> ds[i] == DeleteCall(kind, ts[i].id)
  {
    seq(|ts|, i requires 0 <= i < |ts| => DeleteCall(kind, ts[i].id))
  }

  /** The deletions a sweep issues: one per record that has a provider id, in
      record order, and no other. */
  function CallsFor(ts: seq<Target>, kind: Kind): (calls: seq<Call>)
    ensures |calls| == WithIdCount(ts) <= |ts|
    ensures IsSubsequence(calls, EveryDelete(ts, kind))
    ensures forall i :: 0 <= i < |ts| && ts[i].id != [] ==> DeleteCall(kind, ts[i].id) in calls
    ensures forall c :: c in calls ==> exists i :: 0 <= i < |ts| && ts[i].id != [] && c == DeleteCall(kind, ts[i].id)
    decreases |ts|
  {
    if ts == [] then []
    else
      var rest := CallsFor(ts[1..], kind);
      assert EveryDelete(ts, kind)[1..] == EveryDelete(ts[1..], kind);
      if ts[0].id == [] then rest
      else
        var calls := [DeleteCall(kind, ts[0].id)] + rest;
        assert calls[1..] == rest;
        calls
  }

  datatype Sweep = Sweep(report: seq<ReportEntry>, calls: seq<Call>)

  /** One `for ... of` loop with its `try`/`catch`: each record is attempted in turn,
      a failure is written to the report and the loop goes on. */
  function SweepAll(ts: seq<Target>, kind: Kind, provider: Call -> Answer): (r: Sweep)
    // one entry per record, each decided by that record alone: no failure cuts
    // the sweep short or changes what happens to a later record
    ensures |r.report| == |ts|
    ensures forall i :: 0 <= i < |ts| ==> r.report[i] == EntryFor(ts[i], kind, provider)
    ensures r.calls == CallsFor(ts, kind)
    decreases |ts|
  {
    if ts == [] then Sweep([], [])
    else
      var rest := SweepAll(ts[1..], kind, provider);
      var call := if ts[0].id == [] then [] else [DeleteCall(kind, ts[0].id)];
      Sweep([EntryFor(ts[0], kind, provider)] + rest.report, call + rest.calls)
  }

  /** Failures in the report are exactly the records whose deletion the provider
      refused. */
  lemma FailedIffProviderRefused(ts: seq<Target>, kind: Kind, provider: Call -> Answer, i: nat)
    requires i < |ts|
    ensures SweepAll(ts, kind, provider).report[i].outcome.Failed? <==>
            ts[i].id != [] && provider(DeleteCall(kind, ts[i].id)).Err?
    ensures SweepAll(ts, kind, provider).report[i].key == ts[i].key
  {
  }

  /** `dryRun = true` and `confirm = false` when the body leaves them out. */
  function DryRun(dryRun: Option<bool>): bool { dryRun.GetOr(true) }
  function Confirm(confirm: Option<bool>): bool { confirm.GetOr(false) }

  /** The handler body after the admin gate. `dryRun` and `confirm` are the
      truthiness of the body's fields when present. */
  function ResetBody(cfg: Config, nim: Option<string>, dryRun: Option<bool>, confirm: Option<bool>,
                     store: Store, provider: Call -> Answer): (r: Step)
    ensures Blank(nim) ==> r == Step(store, [], Refused(400, "nim is required"))
    ensures !Blank(nim) && CheckNim(cfg.roster, nim).Invalid? ==> r == Step(store, [], Refused(404, "NIM tidak valid"))
    // only a confirmed reset of an identity that has records touches anything
    ensures r.calls != [] || r.store != store ==>
      && !Blank(nim) && CheckNim(cfg.roster, nim).Valid?
      && !DryRun(dryRun) && Confirm(confirm)
    ensures !Blank(nim) && CheckNim(cfg.roster, nim).Valid? ==>
      var id := CheckNim(cfg.roster, nim).nim;
      var nama := CheckNim(cfg.roster, nim).nama;
      var subs := SubsOf(store.subs, id);
      var mails := EmailsOf(store.emails, id);
      if subs == [] && mails == [] then
        r == Step(store, [], NothingToReset(id, nama, DryRun(dryRun), Confirm(confirm)))
      else if DryRun(dryRun) || !Confirm(confirm) then
        // the preview lists exactly the identity's records
        r == Step(store, [], ResetPreview(id, nama, SubTargets(subs), EmailTargets(mails)))
      else
        && r.response.ResetDone?
        // email routes first, then DNS records, each in stored order
        && r.calls == CallsFor(EmailTargets(mails), Routes) + CallsFor(SubTargets(subs), Records)
        && |r.response.emailReport| == |mails| && |r.response.subdomainReport| == |subs|
        && (forall i :: 0 <= i < |mails| ==>
              r.response.emailReport[i] == EntryFor(EmailTargets(mails)[i], Routes, provider))
        && (forall i :: 0 <= i < |subs| ==>
              r.response.subdomainReport[i] == EntryFor(SubTargets(subs)[i], Records, provider))
        // every local record of the identity is removed whatever the provider said,
        // and the counts reported are the documents removed
        && SubsOf(r.store.subs, id) == [] && EmailsOf(r.store.emails, id) == []
        && r.response.emailsDeleted == |store.emails| - |r.store.emails|
        && r.response.subdomainsDeleted == |store.subs| - |r.store.subs|
        && r.store.owners == store.owners
  {
    if Blank(nim) then Step(store, [], Refused(400, "nim is required"))
    else match CheckNim(cfg.roster, nim)
    case Invalid => Step(store, [], Refused(404, "NIM tidak valid"))
    case Valid(id, nama) =>
      var subs := SubsOf(store.subs, id);
      var mails := EmailsOf(store.emails, id);
      if |subs| == 0 && |mails| == 0 then Step(store, [], NothingToReset(id, nama, DryRun(dryRun), Confirm(confirm)))
      else if DryRun(dryRun) || !Confirm(confirm) then
        Step(store, [], ResetPreview(id, nama, SubTargets(subs), EmailTargets(mails)))
      else
        var emailSweep := SweepAll(EmailTargets(mails), Routes, provider);
        var subSweep := SweepAll(SubTargets(subs), Records, provider);
        SubsOfWithout(store.subs, id, id);
        EmailsOfWithout(store.emails, id, id);
        Step(Store(SubsWithout(store.subs, id), EmailsWithout(store.emails, id), store.owners),
             emailSweep.calls + subSweep.calls,
             ResetDone(id, nama, emailSweep.report, subSweep.report, |mails|, |subs|))
  }

  /** A reset never touches the owner documents. */
  lemma ResetKeepsOwners(cfg: Config, nim: Option<string>, dryRun: Option<bool>, confirm: Option<bool>,
                         store: Store, provider: Call -> Answer)
    ensures ResetBody(cfg, nim, dryRun, confirm, store, provider).store.owners == store.owners
  {
    var r := ResetBody(cfg, nim, dryRun, confirm, store, provider);
    if r.store != store {
      var id := CheckNim(cfg.roster, nim).nim;
      assert r.store == Store(SubsWithout(store.subs, id), EmailsWithout(store.emails, id), store.owners);
    }
  }

  /** A reset removes nothing that belongs to another identity: every other
      identity's records are still there, in the same order. */
  lemma ResetSparesOthers(cfg: Config, nim: Option<string>, dryRun: Option<bool>, confirm: Option<bool>,
                          store: Store, provider: Call -> Answer, other: string)
    requires CheckNim(cfg.roster, nim).Valid? ==> other != CheckNim(cfg.roster, nim).nim
    ensures SubsOf(ResetBody(cfg, nim, dryRun, confirm, store, provider).store.subs, other) == SubsOf(store.subs, other)
    ensures EmailsOf(ResetBody(cfg, nim, dryRun, confirm, store, provider).store.emails, other) == EmailsOf(store.emails, other)
  {
    var r := ResetBody(cfg, nim, dryRun, confirm, store, provider);
    if r.store != store {
      var id := CheckNim(cfg.roster, nim).nim;
      assert r.store == Store(SubsWithout(store.subs, id), EmailsWithout(store.emails, id), store.owners);
      SubsOfWithout(store.subs, id, other);
      EmailsOfWithout(store.emails, id, other);
    }
  }

  /** A reset only removes records, so it keeps the limits. */
  lemma ResetBodyPreservesQuotaAndUnique(cfg: Config, nim: Option<string>, dryRun: Option<bool>, confirm: Option<bool>,
                                         store: Store, provider: Call -> Answer)
    requires QuotaAndUnique(store)
    ensures QuotaAndUnique(ResetBody(cfg, nim, dryRun, confirm, store, provider).store)
  {
    var r := ResetBody(cfg, nim, dryRun, confirm, store, provider);
    if r.store != store {
      var id := CheckNim(cfg.roster, nim).nim;
      assert r.store == Store(SubsWithout(store.subs, id), EmailsWithout(store.emails, id), store.owners);
      forall n
        ensures |SubsOf(r.store.subs, n)| <= Quota && |EmailsOf(r.store.emails, n)| <= Quota
      {
        SubsOfWithout(store.subs, id, n);
        EmailsOfWithout(store.emails, id, n);
      }
      SubsWithoutUnique(store.subs, id);
      EmailsWithoutUnique(store.emails, id);
    }
  }

  /** A reset keeps the store consistent. */
  lemma ResetBodyPreservesConsistent(cfg: Config, nim: Option<string>, dryRun: Option<bool>, confirm: Option<bool>,
                                     store: Store, provider: Call -> Answer)
    requires Consistent(store)
    ensures Consistent(ResetBody(cfg, nim, dryRun, confirm, store, provider).store)
  {
    var r := ResetBody(cfg, nim, dryRun, confirm, store, provider);
    ResetBodyPreservesQuotaAndUnique(cfg, nim, dryRun, confirm, store, provider);
    if r.store != store {
      var id := CheckNim(cfg.roster, nim).nim;
      assert r.store == Store(SubsWithout(store.subs, id), EmailsWithout(store.emails, id), store.owners);
      forall e | e in r.store.emails
        ensures Owns(r.store.subs, e.nim, e.subdomain)
      {
        var s :| s in store.subs && s.nim == e.nim && s.sub == e.subdomain;
        assert s in r.store.subs;
      }
    }
  }

  // ---------------------------------------------------------------------------
  // The admin gate in front of the body
  // ---------------------------------------------------------------------------

  /** The reset handler as evidently intended: a refused admin check ends the
      request with its 401 and nothing else happens. `admin` is `requireAdmin`'s
      decision on the request. */
  function AdminReset(cfg: Config, admin: Decision, nim: Option<string>, dryRun: Option<bool>,
                      confirm: Option<bool>, store: Store, provider: Call -> Answer): (r: Step)
    ensures admin != Pass ==> r.store == store && r.calls == [] && r.response == GateResponse(admin)
    ensures admin == Pass ==> r == ResetBody(cfg, nim, dryRun, confirm, store, provider)
  {
    if admin != Pass then Step(store, [], GateResponse(admin))
    else ResetBody(cfg, nim, dryRun, confirm, store, provider)
  }

  /** The reset handler as written: `if (!requireAdmin(req, res)) return;` tests
      the value `requireAdmin` returns, and on refusal that value is the response
      object, which is truthy, so the body runs after the 401 has been sent. */
  function AdminResetAsWritten(cfg: Config, admin: Decision, nim: Option<string>, dryRun: Option<bool>,
                               confirm: Option<bool>, store: Store, provider: Call -> Answer): (r: Step)
    // whatever the gate decided, the store and the provider see the body's effects
    ensures r.store == ResetBody(cfg, nim, dryRun, confirm, store, provider).store
    ensures r.calls == ResetBody(cfg, nim, dryRun, confirm, store, provider).calls
  {
    var body := ResetBody(cfg, nim, dryRun, confirm, store, provider);
    var sent := if admin == Pass then body.response else GateResponse(admin);
    if !Truthy(AdminGateValue(admin)) then Step(store, [], sent)
    else Step(body.store, body.calls, sent)
  }

  /** One request that shows the difference: no `Authorization` header, a known
      identity with one subdomain, `dryRun: false` and `confirm: true`. As written,
      the caller receives the 401 and the record is still deleted at the provider
      and in the store; the gated handler changes nothing. */
  lemma UnauthenticatedResetDeletes()
    ensures
      var cfg := Config(map[], [Student("123", "Ana")], "example.org", (s: string) => s);
      var admin := RequireAdmin(cfg.env, map[], cfg.decode);
      var store := Store([SubRecord("123", "ana", "ana.example.org", "rec-1", "host")], [], map["123" := "Ana"]);
      var provider := (c: Call) => Ok("", "");
      var asWritten := AdminResetAsWritten(cfg, admin, Some("123"), Some(false), Some(true), store, provider);
      var intended := AdminReset(cfg, admin, Some("123"), Some(false), Some(true), store, provider);
      && admin == Unauthorized("Admin credentials required")
      && asWritten.response == Refused(401, "Admin credentials required")
      && asWritten.calls == [DeleteRecord("rec-1")]
      && asWritten.store.subs == []
      && intended == Step(store, [], Refused(401, "Admin credentials required"))
  {
    var cfg := Config(map[], [Student("123", "Ana")], "example.org", (s: string) => s);
    var provider := (c: Call) => Ok("", "");
    NoHeaderIsRefused(cfg.env, cfg.decode);
    ConfirmedResetOfOneRecord(cfg.decode, provider);
  }

  /** The confirmed reset of an identity holding one subdomain deletes its DNS
      record and its document, whatever the provider answers. */
  lemma ConfirmedResetOfOneRecord(decode: string -> string, provider: Call -> Answer)
    ensures
      var cfg := Config(map[], [Student("123", "Ana")], "example.org", decode);
      var store := Store([SubRecord("123", "ana", "ana.example.org", "rec-1", "host")], [], map["123" := "Ana"]);
      var body := ResetBody(cfg, Some("123"), Some(false), Some(true), store, provider);
      body.calls == [DeleteRecord("rec-1")] && body.store.subs == []
  {
    var cfg := Config(map[], [Student("123", "Ana")], "example.org", decode);
    KnownIdentity();
    ConfirmedResetOfOne(cfg, Some("123"), "Ana", SubRecord("123", "ana", "ana.example.org", "rec-1", "host"),
                        map["123" := "Ana"], provider);
  }

  /** A confirmed reset of a store whose only record is one subdomain of the
      identity, with a provider id: one DNS deletion, and no subdomain left. */
  lemma ConfirmedResetOfOne(cfg: Config, nim: Option<string>, nama: string, rec: SubRecord,
                            owners: map<string, string>, provider: Call -> Answer)
    requires !Blank(nim) && CheckNim(cfg.roster, nim) == Valid(rec.nim, nama) && rec.recordId != []
    ensures var body := ResetBody(cfg, nim, Some(false), Some(true), Store([rec], [], owners), provider);
      body.calls == [DeleteRecord(rec.recordId)] && body.store.subs == []
  {
    OneRecordSweep(rec);
    var store := Store([rec], [], owners);
    assert SubsOf(store.subs, rec.nim) == [rec] && EmailsOf(store.emails, rec.nim) == [];
    assert !DryRun(Some(false)) && Confirm(Some(true));
    var body := ResetBody(cfg, nim, Some(false), Some(true), store, provider);
    assert body.calls == CallsFor(EmailTargets([]), Routes) + CallsFor(SubTargets([rec]), Records);
    assert body.store == Store(SubsWithout(store.subs, rec.nim), EmailsWithout(store.emails, rec.nim), owners);
  }

  /** The targets and the calls of a reset whose only record is one subdomain with
      a provider id. */
  lemma OneRecordSweep(rec: SubRecord)
    requires rec.recordId != []
    ensures SubsOf([rec], rec.nim) == [rec]
    ensures EmailsOf([], rec.nim) == []
    ensures CallsFor(EmailTargets([]), Routes) + CallsFor(SubTargets([rec]), Records) == [DeleteRecord(rec.recordId)]
    ensures SubsWithout([rec], rec.nim) == []
  {
    assert SubsWithout([rec], rec.nim) == [] + SubsWithout([rec][1..], rec.nim);
    assert SubsOf([rec], rec.nim) == [rec] + SubsOf([rec][1..], rec.nim);
    assert SubTargets([rec]) == [Target(rec.fqdn, rec.recordId)];
    assert CallsFor(SubTargets([rec]), Records) == [DeleteRecord(rec.recordId)] + CallsFor([], Records);
  }

  /** A sweep in which the provider refuses the first deletion: the second
      record has no provider id and is reported deleted without a call, and the
      third is still attempted and deleted. */
  lemma SweepKeepsGoingAfterFailure()
    ensures
      var provider := (c: Call) => if c == DeleteRoute("rule-1") then Err("rate limited") else Ok("", "");
      var ts := [Target("a@ana.example.org", "rule-1"), Target("b@ana.example.org", ""), Target("c@ana.example.org", "rule-3")];
      SweepAll(ts, Routes, provider) ==
        Sweep([ ReportEntry("a@ana.example.org", Failed("rate limited"))
              , ReportEntry("b@ana.example.org", Deleted)
              , ReportEntry("c@ana.example.org", Deleted) ],
              [DeleteRoute("rule-1"), DeleteRoute("rule-3")])
  {
    var provider := (c: Call) => if c == DeleteRoute("rule-1") then Err("rate limited") else Ok("", "");
    var ts := [Target("a@ana.example.org", "rule-1"), Target("b@ana.example.org", ""), Target("c@ana.example.org", "rule-3")];
    assert ts[1..] == [ts[1], ts[2]] && ts[1..][1..] == [ts[2]] && [ts[2]][1..] == [];
    assert DeleteRoute("rule-3") != DeleteRoute("rule-1");
    var last := SweepAll([ts[2]], Routes, provider);
    assert last == Sweep([ReportEntry("c@ana.example.org", Deleted)], [DeleteRoute("rule-3")]);
    var middle := SweepAll(ts[1..], Routes, provider);
    assert middle == Sweep([ReportEntry("b@ana.example.org", Deleted)] + last.report, last.calls);
    assert EntryFor(ts[0], Routes, provider) == ReportEntry("a@ana.example.org", Failed("rate limited"));
    assert SweepAll(ts, Routes, provider) == Sweep([EntryFor(ts[0], Routes, provider)] + middle.report,
                                                   [DeleteRoute("rule-1")] + middle.calls);
  }

  lemma NoHeaderIsRefused(env: map<string, string>, decode: string -> string)
    ensures RequireAdmin(env, map[], decode) == Unauthorized("Admin credentials required")
  {
    assert AuthorizationHeader(map[]) == None;
  }

  lemma KnownIdentity()
    ensures CheckNim([Student("123", "Ana")], Some("123")) == Valid("123", "Ana")
  {
    assert NoSpace("123");
    assert LookupKey(Some("123")) == "123";
  }

  /** Both readings of the handler keep the limits: each store is the body's or
      the one it started from. */
  lemma AdminResetsPreserveQuotaAndUnique(cfg: Config, admin: Decision, nim: Option<string>, dryRun: Option<bool>,
                                          confirm: Option<bool>, store: Store, provider: Call -> Answer)
    requires QuotaAndUnique(store)
    ensures QuotaAndUnique(AdminResetAsWritten(cfg, admin, nim, dryRun, confirm, store, provider).store)
    ensures QuotaAndUnique(AdminReset(cfg, admin, nim, dryRun, confirm, store, provider).store)
  {
    ResetBodyPreservesQuotaAndUnique(cfg, nim, dryRun, confirm, store, provider);
  }

  /** The handler as written keeps the store consistent too: its store is the body's. */
  lemma AdminResetAsWrittenPreservesConsistent(cfg: Config, admin: Decision, nim: Option<string>, dryRun: Option<bool>,
                                               confirm: Option<bool>, store: Store, provider: Call -> Answer)
    requires Consistent(store)
    ensures Consistent(AdminResetAsWritten(cfg, admin, nim, dryRun, confirm, store, provider).store)
  {
    ResetBodyPreservesConsistent(cfg, nim, dryRun, confirm, store, provider);
  }

  /** The gated handler keeps the store consistent. */
  lemma AdminResetPreservesConsistent(cfg: Config, admin: Decision, nim: Option<string>, dryRun: Option<bool>,
                                      confirm: Option<bool>, store: Store, provider: Call -> Answer)
    requires Consistent(store)
    ensures Consistent(AdminReset(cfg, admin, nim, dryRun, confirm, store, provider).store)
  {
    ResetBodyPreservesConsistent(cfg, nim, dryRun, confirm, store, provider);
  }
}

=== FILE: storage.dfy ===
/** The document store the handlers of `server.js` read and write: the
    `subdomains` and `emails` collections in insertion order, and the `owners`
    collection keyed by identity code. Queries are the filters the handlers issue. */
module Storage {
  import opened Text

  /** A `subdomains` document; an empty `recordId` is a missing `cf_record_id`. */
  datatype SubRecord = SubRecord(nim: string, sub: string, fqdn: string, recordId: string, target: string)

  /** An `emails` document; an empty `ruleId` is a missing `cf_rule_id`. */
  datatype EmailRecord = EmailRecord(nim: string, email: string, subdomain: string, destination: string, ruleId: string)

  /** The three collections; `owners` maps an identity code to its display name. */
  datatype Store = Store(subs: seq<SubRecord>, emails: seq<EmailRecord>, owners: map<string, string>)

  /** Per-identity limit on subdomains and on email routes. */
  const Quota: nat := 3

  // ---------------------------------------------------------------------------
  // find({ nim }) and deleteMany({ nim })
  // ---------------------------------------------------------------------------

  /** `find({ nim })` on `subdomains`: every document of that identity, each as often
      as it is stored, in insertion order, and nothing else; its length is what
      `countDocuments({ nim })` returns. */
  function SubsOf(subs: seq<SubRecord>, nim: string): (r: seq<SubRecord>)
    ensures forall x :: x in r <==> x in subs && x.nim == nim
  {
    if subs == [] then []
    else (if subs[0].nim == nim then [subs[0]] else []) + SubsOf(subs[1..], nim)
  }

  /** `SubsOf` holds each document of that identity as often as it is stored, and
      nothing else, so its length is the identity's document count. */
  lemma {:induction false} SubsOfCounts(subs: seq<SubRecord>, nim: string)
    ensures forall x :: multiset(SubsOf(subs, nim))[x] == if x.nim == nim then multiset(subs)[x] else 0
    decreases |subs|
  {
    if subs != [] {
      SubsOfCounts(subs[1..], nim);
      var head := if subs[0].nim == nim then [subs[0]] else [];
      var rest := SubsOf(subs[1..], nim);
      assert SubsOf(subs, nim) == head + rest;
      assert subs == [subs[0]] + subs[1..];
      assert multiset(subs) == multiset([subs[0]]) + multiset(subs[1..]);
      assert multiset(SubsOf(subs, nim)) == multiset(head) + multiset(rest);
    }
  }

  /** `SubsOf` keeps the stored order. */
  lemma {:induction false} SubsOfOrdered(subs: seq<SubRecord>, nim: string)
    ensures IsSubsequence(SubsOf(subs, nim), subs)
    decreases |subs|
  {
    if subs != [] {
      SubsOfOrdered(subs[1..], nim);
      var rest := SubsOf(subs[1..], nim);
      if subs[0].nim == nim {
        assert SubsOf(subs, nim) == [subs[0]] + rest;
        assert ([subs[0]] + rest)[1..] == rest;
      } else {
        assert SubsOf(subs, nim) == rest;
      }
    }
  }

  /** The `subdomains` left after `deleteMany({ nim })`. */
  function SubsWithout(subs: seq<SubRecord>, nim: string): (r: seq<SubRecord>)
    ensures forall x :: x in r <==> x in subs && x.nim != nim
    ensures |r| + |SubsOf(subs, nim)| == |subs|
  {
    if subs == [] then []
    else (if subs[0].nim != nim then [subs[0]] else []) + SubsWithout(subs[1..], nim)
  }

  /** `find({ nim })` on `emails`, with the same guarantees. */
  function EmailsOf(emails: seq<EmailRecord>, nim: string): (r: seq<EmailRecord>)
    ensures forall x :: x in r <==> x in emails && x.nim == nim
  {
    if emails == [] then []
    else (if emails[0].nim == nim then [emails[0]] else []) + EmailsOf(emails[1..], nim)
  }

  /** `EmailsOf` holds each document of that identity as often as it is stored, and
      nothing else, so its length is the identity's document count. */
  lemma {:induction false} EmailsOfCounts(emails: seq<EmailRecord>, nim: string)
    ensures forall x :: multiset(EmailsOf(emails, nim))[x] == if x.nim == nim then multiset(emails)[x] else 0
    decreases |emails|
  {
    if emails != [] {
      EmailsOfCounts(emails[1..], nim);
      var head := if emails[0].nim == nim then [emails[0]] else [];
      var rest := EmailsOf(emails[1..], nim);
      assert EmailsOf(emails, nim) == head + rest;
      assert emails == [emails[0]] + emails[1..];
      assert multiset(emails) == multiset([emails[0]]) + multiset(emails[1..]);
      assert multiset(EmailsOf(emails, nim)) == multiset(head) + multiset(rest);
    }
  }

  /** `EmailsOf` keeps the stored order. */
  lemma {:induction false} EmailsOfOrdered(emails: seq<EmailRecord>, nim: string)
    ensures IsSubsequence(EmailsOf(emails, nim), emails)
    decreases |emails|
  {
    if emails != [] {
      EmailsOfOrdered(emails[1..], nim);
      var rest := EmailsOf(emails[1..], nim);
      if emails[0].nim == nim {
        assert EmailsOf(emails, nim) == [emails[0]] + rest;
        assert ([emails[0]] + rest)[1..] == rest;
      } else {
        assert EmailsOf(emails, nim) == rest;
      }
    }
  }

  /** The `emails` left after `deleteMany({ nim })`. */
  function EmailsWithout(emails: seq<EmailRecord>, nim: string): (r: seq<EmailRecord>)
    ensures forall x :: x in r <==> x in emails && x.nim != nim
    ensures |r| + |EmailsOf(emails, nim)| == |emails|
  {
    if emails == [] then []
    else (if emails[0].nim != nim then [emails[0]] else []) + EmailsWithout(emails[1..], nim)
  }

  /** Appending one document adds it to its owner's list and to no other. */
  lemma {:induction false} SubsOfAppend(subs: seq<SubRecord>, x: SubRecord, nim: string)
    ensures SubsOf(subs + [x], nim) == SubsOf(subs, nim) + (if x.nim == nim then [x] else [])
    decreases |subs|
  {
    if subs == [] {
      assert subs + [x] == [x];
    } else {
      assert (subs + [x])[1..] == subs[1..] + [x];
      SubsOfAppend(subs[1..], x, nim);
    }
  }

  lemma {:induction false} EmailsOfAppend(emails: seq<EmailRecord>, x: EmailRecord, nim: string)
    ensures EmailsOf(emails + [x], nim) == EmailsOf(emails, nim) + (if x.nim == nim then [x] else [])
    decreases |emails|
  {
    if emails == [] {
      assert emails + [x] == [x];
    } else {
      assert (emails + [x])[1..] == emails[1..] + [x];
      EmailsOfAppend(emails[1..], x, nim);
    }
  }

  /** Deleting one identity's documents leaves every other identity's list as it
      was, in the same order. */
  lemma {:induction false} SubsOfWithout(subs: seq<SubRecord>, nim: string, other: string)
    ensures SubsOf(SubsWithout(subs, nim), other) == if other == nim then [] else SubsOf(subs, other)
    decreases |subs|
  {
    if subs != [] {
      SubsOfWithout(subs[1..], nim, other);
      var head := if subs[0].nim != nim then [subs[0]] else [];
      SubsOfConcat(head, SubsWithout(subs[1..], nim), other);
    }
  }

  lemma {:induction false} EmailsOfWithout(emails: seq<EmailRecord>, nim: string, other: string)
    ensures EmailsOf(EmailsWithout(emails, nim), other) == if other == nim then [] else EmailsOf(emails, other)
    decreases |emails|
  {
    if emails != [] {
      EmailsOfWithout(emails[1..], nim, other);
      var head := if emails[0].nim != nim then [emails[0]] else [];
      EmailsOfConcat(head, EmailsWithout(emails[1..], nim), other);
    }
  }

  lemma {:induction false} SubsOfConcat(a: seq<SubRecord>, b: seq<SubRecord>, nim: string)
    ensures SubsOf(a + b, nim) == SubsOf(a, nim) + SubsOf(b, nim)
    decreases |a|
  {
    if a == [] {
      assert a + b == b;
    } else {
      assert (a + b)[0] == a[0];
      assert (a + b)[1..] == a[1..] + b;
      SubsOfConcat(a[1..], b, nim);
    }
  }

  lemma {:induction false} EmailsOfConcat(a: seq<EmailRecord>, b: seq<EmailRecord>, nim: string)
    ensures EmailsOf(a + b, nim) == EmailsOf(a, nim) + EmailsOf(b, nim)
    decreases |a|
  {
    if a == [] {
      assert a + b == b;
    } else {
      assert (a + b)[0] == a[0];
      assert (a + b)[1..] == a[1..] + b;
      EmailsOfConcat(a[1..], b, nim);
    }
  }

  // ---------------------------------------------------------------------------
  // findOne lookups
  // ---------------------------------------------------------------------------

  /** `findOne({ fqdn })` on `subdomains` finds a document. */
  predicate FqdnTaken(subs: seq<SubRecord>, fqdn: string) {
    exists s :: s in subs && s.fqdn == fqdn
  }

  /** `findOne({ nim, sub })` on `subdomains` finds a document. */
  predicate Owns(subs: seq<SubRecord>, nim: string, sub: string) {
    exists s :: s in subs && s.nim == nim && s.sub == sub
  }

  /** `findOne({ email })` on `emails` finds a document. */
  predicate EmailTaken(emails: seq<EmailRecord>, email: string) {
    exists e :: e in emails && e.email == email
  }

  // ---------------------------------------------------------------------------
  // The store invariant
  // ---------------------------------------------------------------------------

  ghost predicate UniqueFqdns(subs: seq<SubRecord>) {
    forall i, j :: 0 <= i < j < |subs| ==> subs[i].fqdn != subs[j].fqdn
  }

  ghost predicate UniqueEmails(emails: seq<EmailRecord>) {
    forall i, j :: 0 <= i < j < |emails| ==> emails[i].email != emails[j].email
  }

  /** The limits the create handlers enforce: each identity holds at most three
      subdomains and three routes, and names and addresses are unique. */
  ghost predicate QuotaAndUnique(st: Store) {
    && (forall n :: |SubsOf(st.subs, n)| <= Quota)
    && (forall n :: |EmailsOf(st.emails, n)| <= Quota)
    && UniqueFqdns(st.subs)
    && UniqueEmails(st.emails)
  }

  /** What the handlers maintain between requests: the limits above, every email
      route under a subdomain of the same identity, and every subdomain owner with
      an owner document. */
  ghost predicate Consistent(st: Store) {
    && QuotaAndUnique(st)
    && (forall e :: e in st.emails ==> Owns(st.subs, e.nim, e.subdomain))
    && (forall s :: s in st.subs ==> s.nim in st.owners)
  }

  /** A unique sequence's tail is unique, and its head's name is not in the tail. */
  lemma UniqueFqdnsTail(subs: seq<SubRecord>)
    requires subs != [] && UniqueFqdns(subs)
    ensures UniqueFqdns(subs[1..])
    ensures forall x :: x in subs[1..] ==> x.fqdn != subs[0].fqdn
  {
  }

  /** A name not in a unique sequence can be put in front of it. */
  lemma UniqueFqdnsCons(x: SubRecord, rest: seq<SubRecord>)
    requires UniqueFqdns(rest)
    requires forall y :: y in rest ==> y.fqdn != x.fqdn
    ensures UniqueFqdns([x] + rest)
  {
  }

  /** Deleting documents keeps the remaining names unique. */
  lemma {:induction false} SubsWithoutUnique(subs: seq<SubRecord>, nim: string)
    requires UniqueFqdns(subs)
    ensures UniqueFqdns(SubsWithout(subs, nim))
    decreases |subs|
  {
    if subs != [] {
      UniqueFqdnsTail(subs);
      SubsWithoutUnique(subs[1..], nim);
      var rest := SubsWithout(subs[1..], nim);
      if subs[0].nim != nim {
        UniqueFqdnsCons(subs[0], rest);
        assert SubsWithout(subs, nim) == [subs[0]] + rest;
      } else {
        assert SubsWithout(subs, nim) == rest;
      }
    }
  }

  /** The same two facts for route addresses. */
  lemma UniqueEmailsTail(emails: seq<EmailRecord>)
    requires emails != [] && UniqueEmails(emails)
    ensures UniqueEmails(emails[1..])
    ensures forall x :: x in emails[1..] ==> x.email != emails[0].email
  {
  }

  lemma UniqueEmailsCons(x: EmailRecord, rest: seq<EmailRecord>)
    requires UniqueEmails(rest)
    requires forall y :: y in rest ==> y.email != x.email
    ensures UniqueEmails([x] + rest)
  {
  }

  /** Deleting routes keeps the remaining addresses unique. */
  lemma {:induction false} EmailsWithoutUnique(emails: seq<EmailRecord>, nim: string)
    requires UniqueEmails(emails)
    ensures UniqueEmails(EmailsWithout(emails, nim))
    decreases |emails|
  {
    if emails != [] {
      UniqueEmailsTail(emails);
      EmailsWithoutUnique(emails[1..], nim);
      var rest := EmailsWithout(emails[1..], nim);
      if emails[0].nim != nim {
        UniqueEmailsCons(emails[0], rest);
        assert EmailsWithout(emails, nim) == [emails[0]] + rest;
      } else {
        assert EmailsWithout(emails, nim) == rest;
      }
    }
  }
}

=== FILE: students.dfy ===
/** The identity lookup of `utils/students.js`: a static roster searched for the
    first entry whose identity code equals the trimmed input. */
module Students {
  import opened Wrappers
  import opened Text

  /** A roster entry; `nim` is the identity code as `String(x.nim)` renders it. */
  datatype Student = Student(nim: string, nama: string)

  datatype NimCheck = Invalid | Valid(nim: string, nama: string)

  /** Position of the first entry whose code is `key`, as `Array.prototype.find`
      scans. */
  function FindFirst(roster: seq<Student>, key: string): (r: Option<nat>)
    ensures r.Some? ==> r.value < |roster| && roster[r.value].nim == key
    ensures r.Some? ==> forall j :: 0 <= j < r.value ==> roster[j].nim != key
    ensures r.None? ==> forall j :: 0 <= j < |roster| ==> roster[j].nim != key
  {
    if roster == [] then None
    else if roster[0].nim == key then Some(0)
    else
      match FindFirst(roster[1..], key)
      case None => None
      case Some(i) => Some(i + 1)
  }

  /** `String(nim || "").trim()`; a missing value reads as the empty string. */
  function LookupKey(nim: Option<string>): string {
    Trim(nim.GetOr(""))
  }

  /** The roster search for a key: valid exactly when some roster code equals the
      key, and then the code and name are those of the first such entry. */
  function CheckKey(roster: seq<Student>, key: string): (r: NimCheck)
    ensures r.Valid? <==> exists i :: 0 <= i < |roster| && roster[i].nim == key
    ensures r.Valid? ==>
      exists i :: && 0 <= i < |roster|
                  && roster[i] == Student(r.nim, r.nama)
                  && r.nim == key
                  && forall j :: 0 <= j < i ==> roster[j].nim != r.nim
  {
    match FindFirst(roster, key)
    case None => Invalid
    case Some(i) => Valid(roster[i].nim, roster[i].nama)
  }

  /** `checkNim`: the roster search for the trimmed input. */
  function CheckNim(roster: seq<Student>, nim: Option<string>): (r: NimCheck)
    ensures r.Valid? <==> exists i :: 0 <= i < |roster| && roster[i].nim == LookupKey(nim)
    ensures r.Valid? ==>
      exists i :: && 0 <= i < |roster|
                  && roster[i] == Student(r.nim, r.nama)
                  && r.nim == LookupKey(nim)
                  && forall j :: 0 <= j < i ==> roster[j].nim != r.nim
  {
    CheckKey(roster, LookupKey(nim))
  }

  /** Surrounding white space in the input does not change the answer. */
  lemma CheckNimIgnoresSurroundingSpace(roster: seq<Student>, s: string)
    ensures CheckNim(roster, Some(s)) == CheckNim(roster, Some(Trim(s)))
  {
    TrimIdempotent(s);
  }

  /** A missing or blank input is invalid, as long as no roster code is empty. */
  lemma BlankNimIsInvalid(roster: seq<Student>, nim: Option<string>)
    requires forall i :: 0 <= i < |roster| ==> roster[i].nim != []
    requires nim.None? || AllSpace(nim.value)
    ensures CheckNim(roster, nim) == Invalid
  {
    assert LookupKey(nim) == [];
  }
}

=== FILE: text.dfy ===
/** The JavaScript string built-ins the services rely on: `String.prototype.trim`
    and the regular-expression class `\s`, `toLowerCase` (on ASCII letters),
    `indexOf` for one character and `split` on one separator character. */
module Text {

  /** ECMAScript WhiteSpace and LineTerminator code points: the characters `trim`
      removes and `\s` matches. */
  predicate IsSpace(c: char) {
    || c == '\t' || c == '\n' || c == '\U{B}' || c == '\U{C}' || c == '\r' || c == ' '
    || c == '\U{A0}' || c == '\U{1680}' || ('\U{2000}' <= c <= '\U{200A}')
    || c == '\U{2028}' || c == '\U{2029}' || c == '\U{202F}' || c == '\U{205F}'
    || c == '\U{3000}' || c == '\U{FEFF}'
  }

  predicate AllSpace(s: string) {
    forall i :: 0 <= i < |s| ==> IsSpace(s[i])
  }

  predicate NoSpace(s: string) {
    forall i :: 0 <= i < |s| ==> !IsSpace(s[i])
  }

  /** Neither the first nor the last character is white space. */
  predicate NoEdgeSpace(s: string) {
    s == [] || (!IsSpace(s[0]) && !IsSpace(s[|s| - 1]))
  }

  /** White space throughout a concatenation is white space throughout both parts. */
  lemma AllSpaceConcat(a: string, b: string)
    ensures AllSpace(a + b) <==> AllSpace(a) && AllSpace(b)
  {
    if AllSpace(a) && AllSpace(b) {
      forall i | 0 <= i < |a + b|
        ensures IsSpace((a + b)[i])
      {
        if i < |a| {
          assert (a + b)[i] == a[i];
        } else {
          assert (a + b)[i] == b[i - |a|];
        }
      }
    }
    if AllSpace(a + b) {
      forall i | 0 <= i < |a|
        ensures IsSpace(a[i])
      {
        assert a[i] == (a + b)[i];
      }
      forall i | 0 <= i < |b|
        ensures IsSpace(b[i])
      {
        assert b[i] == (a + b)[|a| + i];
      }
    }
  }

  /** No white space in a concatenation means none in either part. */
  lemma NoSpaceConcat(a: string, b: string)
    ensures NoSpace(a + b) ==> NoSpace(a) && NoSpace(b)
  {
    if NoSpace(a + b) {
      forall i | 0 <= i < |a|
        ensures !IsSpace(a[i])
      {
        assert a[i] == (a + b)[i];
      }
      forall i | 0 <= i < |b|
        ensures !IsSpace(b[i])
      {
        assert b[i] == (a + b)[|a| + i];
      }
    }
  }

  /** Only the empty string is both free of white space and made of it. */
  lemma SpaceFreeAndAllSpace(a: string)
    ensures NoSpace(a) && AllSpace(a) ==> a == []
  {
    if a != [] {
      var c := a[0];
    }
  }

  /** `r` is `s` with a run of white space taken off each end. */
  predicate StripsTo(s: string, r: string) {
    exists a :: 0 <= a <= |s| - |r| && r == s[a..a + |r|] && AllSpace(s[..a]) && AllSpace(s[a + |r|..])
  }

  /** Drops the leading white space: what is dropped is all white space and what is
      left is a suffix that does not start with white space. */
  function TrimStart(s: string): (r: string)
    ensures |r| <= |s| && r == s[|s| - |r|..]
    ensures AllSpace(s[..|s| - |r|])
    ensures r == [] || !IsSpace(r[0])
    decreases |s|
  {
    if |s| > 0 && IsSpace(s[0]) then
      var r := TrimStart(s[1..]);
      var dropped := s[1..][..|s| - 1 - |r|];
      assert s[1..][|s| - 1 - |r|..] == s[|s| - |r|..];
      assert s[..|s| - |r|] == [s[0]] + dropped;
      AllSpaceConcat([s[0]], dropped);
      r
    else
      assert s[..0] == [];
      s
  }

  /** Drops the trailing white space: what is dropped is all white space and what is
      left is a prefix that does not end with white space. */
  function TrimEnd(s: string): (r: string)
    ensures |r| <= |s| && r == s[..|r|]
    ensures AllSpace(s[|r|..])
    ensures r == [] || !IsSpace(r[|r| - 1])
    decreases |s|
  {
    if |s| > 0 && IsSpace(s[|s| - 1]) then
      var r := TrimEnd(s[..|s| - 1]);
      var dropped := s[..|s| - 1][|r|..];
      assert s[..|s| - 1][..|r|] == s[..|r|];
      assert s[|r|..] == dropped + [s[|s| - 1]];
      AllSpaceConcat(dropped, [s[|s| - 1]]);
      r
    else
      assert s[|s|..] == [];
      s
  }

  /** What is left after dropping white space at the front (giving `t`) and then at
      the back (giving `r`): no white space at either end, nothing for an
      all-white-space input, and the input itself when it holds no white space. */
  lemma TrimmedEdges(s: string, t: string, r: string)
    requires |t| <= |s| && t == s[|s| - |t|..] && AllSpace(s[..|s| - |t|]) && (t == [] || !IsSpace(t[0]))
    requires |r| <= |t| && r == t[..|r|] && AllSpace(t[|r|..]) && (r == [] || !IsSpace(r[|r| - 1]))
    ensures NoEdgeSpace(r)
    ensures NoSpace(s) ==> r == s
    ensures AllSpace(s) <==> r == []
    ensures StripsTo(s, r)
  {
    var front := s[..|s| - |t|];
    var back := t[|r|..];
    assert s == front + t;
    assert t == r + back;
    AllSpaceConcat(front, t);
    AllSpaceConcat(r, back);
    if r != [] {
      assert r[0] == t[0];
    }
    if NoSpace(s) {
      NoSpaceConcat(front, t);
      NoSpaceConcat(r, back);
      SpaceFreeAndAllSpace(front);
      SpaceFreeAndAllSpace(back);
    }
    var a := |s| - |t|;
    assert r == s[a..a + |r|];
    assert s[a + |r|..] == back;
  }

  /** `String.prototype.trim`: the input with the white space at both ends taken
      off, and nothing else. */
  function Trim(s: string): (r: string)
    ensures |r| <= |s|
    ensures NoEdgeSpace(r)
    ensures NoSpace(s) ==> r == s
    ensures AllSpace(s) <==> r == []
    ensures StripsTo(s, r)
  {
    TrimmedEdges(s, TrimStart(s), TrimEnd(TrimStart(s)));
    TrimEnd(TrimStart(s))
  }

  /** Trimming a second time changes nothing. */
  lemma TrimIdempotent(s: string)
    ensures Trim(Trim(s)) == Trim(s)
  {
    var t := Trim(s);
    assert TrimStart(t) == t;
    assert TrimEnd(t) == t;
  }

  /** `toLowerCase` on the ASCII range: `A`-`Z` become `a`-`z`, every other
      character is left as it is. */
  function LowerChar(c: char): (r: char)
    ensures ('A' <= c <= 'Z') ==> 'a' <= r <= 'z' && r as int == c as int + 32
    ensures !('A' <= c <= 'Z') ==> r == c
  {
    if 'A' <= c <= 'Z' then (c as int + 32) as char else c
  }

  function ToLower(s: string): (r: string)
    ensures |r| == |s|
    ensures forall i :: 0 <= i < |s| ==> r[i] == LowerChar(s[i])
  {
    seq(|s|, i requires 0 <= i < |s| => LowerChar(s[i]))
  }

  /** Lower-casing works character by character, so it distributes over
      concatenation. */
  lemma ToLowerAppend(a: string, b: string)
    ensures ToLower(a + b) == ToLower(a) + ToLower(b)
  {
    assert forall i :: 0 <= i < |a| ==> (a + b)[i] == a[i];
    assert forall i :: |a| <= i < |a| + |b| ==> (a + b)[i] == b[i - |a|];
  }

  /** `s.indexOf(c)` for a character known to occur: the first position holding `c`. */
  function IndexOf(s: string, c: char): (i: nat)
    requires c in s
    ensures i < |s| && s[i] == c
    ensures c !in s[..i]
  {
    if s[0] == c then 0
    else
      var i := 1 + IndexOf(s[1..], c);
      assert s[..i] == [s[0]] + s[1..][..i - 1];
      i
  }

  /** `s.split(sep)` for a one-character separator: the maximal separator-free
      pieces, in order, always at least one (`"".split(",")` is `[""]`). */
  function Split(s: string, sep: char): (parts: seq<string>)
    ensures |parts| >= 1
    ensures forall k :: 0 <= k < |parts| ==> sep !in parts[k]
    decreases |s|
  {
    if sep in s then
      var i := IndexOf(s, sep);
      [s[..i]] + Split(s[i + 1..], sep)
    else [s]
  }

  /** `parts.join(sep)`. */
  function Join(parts: seq<string>, sep: char): string
    requires |parts| >= 1
  {
    if |parts| == 1 then parts[0] else parts[0] + [sep] + Join(parts[1..], sep)
  }

  /** Joining a piece in front of at least one other. */
  lemma JoinCons(p: string, parts: seq<string>, sep: char)
    requires |parts| >= 1
    ensures Join([p] + parts, sep) == p + [sep] + Join(parts, sep)
  {
    assert ([p] + parts)[0] == p;
    assert ([p] + parts)[1..] == parts;
  }

  /** Joining the pieces back with the separator gives the original string. */
  lemma {:induction false} JoinSplit(s: string, sep: char)
    ensures Join(Split(s, sep), sep) == s
    decreases |s|
  {
    if sep in s {
      var i := IndexOf(s, sep);
      var rest := s[i + 1..];
      JoinSplit(rest, sep);
      assert Split(s, sep) == [s[..i]] + Split(rest, sep);
      JoinCons(s[..i], Split(rest, sep), sep);
      assert s == s[..i] + [sep] + rest;
    }
  }

  /** A piece that holds no separator is found again, whole, by `Split`. */
  lemma IndexOfAfterPiece(p: string, sep: char, rest: string)
    requires sep !in p
    ensures sep in p + [sep] + rest
    ensures IndexOf(p + [sep] + rest, sep) == |p|
  {
    var s := p + [sep] + rest;
    assert s[|p|] == sep;
    assert s[..|p|] == p;
  }

  /** Splitting a separator-free piece followed by the separator peels off that
      piece. */
  lemma SplitAtPiece(p: string, sep: char, rest: string)
    requires sep !in p
    ensures Split(p + [sep] + rest, sep) == [p] + Split(rest, sep)
  {
    IndexOfAfterPiece(p, sep, rest);
    var s := p + [sep] + rest;
    assert s[..|p|] == p;
    assert s[|p| + 1..] == rest;
  }

  /** Splitting a join of separator-free pieces gives the pieces back. */
  lemma {:induction false} SplitJoin(parts: seq<string>, sep: char)
    requires |parts| >= 1
    requires forall k :: 0 <= k < |parts| ==> sep !in parts[k]
    ensures Split(Join(parts, sep), sep) == parts
    decreases |parts|
  {
    if |parts| > 1 {
      var tail := parts[1..];
      assert parts == [parts[0]] + tail;
      JoinCons(parts[0], tail, sep);
      SplitAtPiece(parts[0], sep, Join(tail, sep));
      assert forall k :: 0 <= k < |tail| ==> tail[k] == parts[k + 1];
      SplitJoin(tail, sep);
    } else {
      assert Join(parts, sep) == parts[0];
    }
  }

  /** `a` can be obtained from `b` by deleting elements. */
  predicate IsSubsequence<T(==)>(a: seq<T>, b: seq<T>)
    decreases |b|
  {
    if a == [] then true
    else if b == [] then false
    else (a[0] == b[0] && IsSubsequence(a[1..], b[1..])) || IsSubsequence(a, b[1..])
  }

  lemma {:induction false} SubsequenceReflexive<T>(a: seq<T>)
    ensures IsSubsequence(a, a)
    decreases |a|
  {
    if a != [] {
      SubsequenceReflexive(a[1..]);
    }
  }

  /** A subsequence holds no more copies of any character than its source. */
  lemma {:induction false} SubsequenceMultiset<T>(a: seq<T>, b: seq<T>)
    requires IsSubsequence(a, b)
    ensures multiset(a) <= multiset(b)
    decreases |b|
  {
    if a != [] {
      assert b == [b[0]] + b[1..];
      if a[0] == b[0] && IsSubsequence(a[1..], b[1..]) {
        SubsequenceMultiset(a[1..], b[1..]);
        assert a == [a[0]] + a[1..];
      } else {
        SubsequenceMultiset(a, b[1..]);
      }
    }
  }
}

=== FILE: validator_examples.dfy ===
/** The worked cases of `sanitizeSub`, proved from the model. */
module ValidatorExamples {
  import opened Wrappers
  import opened Text
  import opened Validators

  lemma LowerExample()
    ensures ToLower("My_Cool-Site!") == "my_cool-site!"
  {
    var tail := "Cool-" + "Site!";
    assert ToLower(tail) == "cool-site!" by {
      ToLowerAppend("Cool-", "Site!");
      assert ToLower("Cool-") == "cool-";
      assert ToLower("Site!") == "site!";
    }
    assert ToLower("My_" + tail) == "my_cool-site!" by {
      ToLowerAppend("My_", tail);
      assert ToLower("My_") == "my_";
    }
    assert "My_Cool-Site!" == "My_" + tail;
  }

  lemma FilterTailExample()
    ensures KeepLabelChars("cool-site" + "!") == "cool-site"
  {
    KeepLabelCharsAppend("cool-site", "!");
    KeepLabelCharsOfLabel("cool-site");
  }

  lemma FilterMiddleExample()
    ensures KeepLabelChars("_" + ("cool-site" + "!")) == "cool-site"
  {
    KeepLabelCharsAppend("_", "cool-site" + "!");
    FilterTailExample();
  }

  lemma FilterExample()
    ensures KeepLabelChars("my" + ("_" + ("cool-site" + "!"))) == "mycool-site"
  {
    KeepLabelCharsAppend("my", "_" + ("cool-site" + "!"));
    FilterMiddleExample();
    KeepLabelCharsOfLabel("my");
  }

  /** The worked case of a mixed-case name with punctuation. */
  lemma SanitizeSubMixedCaseExample()
    ensures SanitizeSub(Some("My_Cool-Site!")) == Some("mycool-site")
  {
    LowerExample();
    assert "my_cool-site!" == "my" + ("_" + ("cool-site" + "!"));
    FilterExample();
  }

  /** Two characters are too few, whatever the filter keeps. */
  lemma SanitizeSubShortExample()
    ensures SanitizeSub(Some("ab")) == None
  {
    assert |ToLower("ab")| == 2;
  }

  /** Three dashes are enough, since only the character set and the length are
      checked. */
  lemma SanitizeSubDashExample()
    ensures SanitizeSub(Some("---")) == Some("---")
  {
    assert IsLabel("---") by {
      assert forall i :: 0 <= i < 3 ==> "---"[i] == '-';
    }
    CleanLabelIsFixed("---");
  }
}

=== FILE: validators.dfy ===
/** The input validators of `utils/validators.js`: the subdomain label normaliser,
    the email local-part check and the loose destination-address check. */
module Validators {
  import opened Wrappers
  import opened Text

  // ---------------------------------------------------------------------------
  // sanitizeSub
  // ---------------------------------------------------------------------------

  /** The characters a subdomain label may hold: `[a-z0-9-]`. */
  predicate IsLabelChar(c: char) {
    'a' <= c <= 'z' || '0' <= c <= '9' || c == '-'
  }

  predicate IsLabel(s: string) {
    forall i :: 0 <= i < |s| ==> IsLabelChar(s[i])
  }

  /** `replace(/[^a-z0-9-]/g, "")`: drops every character outside `[a-z0-9-]`. */
  function KeepLabelChars(s: string): (r: string)
    ensures IsLabel(r)
    ensures |r| <= |s|
  {
    if s == [] then []
    else if IsLabelChar(s[0]) then [s[0]] + KeepLabelChars(s[1..])
    else KeepLabelChars(s[1..])
  }

  /** The filtered string is a subsequence of the input that keeps every label
      character of the input. */
  lemma {:induction false} KeepLabelCharsSpec(s: string)
    ensures IsSubsequence(KeepLabelChars(s), s)
    ensures forall c :: IsLabelChar(c) ==> multiset(KeepLabelChars(s))[c] == multiset(s)[c]
    decreases |s|
  {
    if s != [] {
      KeepLabelCharsSpec(s[1..]);
      assert s == [s[0]] + s[1..];
    }
  }

  /** The three properties of `KeepLabelChars` pin its result down: any label-only
      subsequence of `s` that keeps every label character of `s` is that result. */
  lemma {:induction false} KeepLabelCharsUnique(s: string, t: string)
    requires IsLabel(t)
    requires IsSubsequence(t, s)
    requires forall c :: IsLabelChar(c) ==> multiset(t)[c] == multiset(s)[c]
    ensures t == KeepLabelChars(s)
    decreases |s|
  {
    if s != [] {
      var c := s[0];
      assert s == [c] + s[1..];
      if IsLabelChar(c) {
        assert multiset(t)[c] == multiset(s[1..])[c] + 1;
        assert t != [];
        if !(t[0] == c && IsSubsequence(t[1..], s[1..])) {
          SubsequenceMultiset(t, s[1..]);
          assert false;
        }
        assert t == [t[0]] + t[1..];
        forall d | IsLabelChar(d)
          ensures multiset(t[1..])[d] == multiset(s[1..])[d]
        {
        }
        KeepLabelCharsUnique(s[1..], t[1..]);
      } else {
        if t != [] {
          assert t[0] != c;
        }
        forall d | IsLabelChar(d)
          ensures multiset(t)[d] == multiset(s[1..])[d]
        {
        }
        KeepLabelCharsUnique(s[1..], t);
      }
    }
  }

  /** `sanitizeSub`: a missing or empty name is rejected; otherwise the name is
      lower-cased, stripped of everything outside `[a-z0-9-]`, and accepted when at
      least three characters remain. */
  function SanitizeSub(name: Option<string>): (r: Option<string>)
    ensures name.None? || name.value == [] ==> r.None?
    ensures r.Some? ==> |r.value| >= 3 && IsLabel(r.value)
    ensures r.Some? ==> IsSubsequence(r.value, ToLower(name.value))
    ensures r.Some? ==>
      forall c :: IsLabelChar(c) ==> multiset(r.value)[c] == multiset(ToLower(name.value))[c]
    ensures name.Some? && name.value != [] && r.None? ==> |KeepLabelChars(ToLower(name.value))| < 3
  {
    if name.None? || name.value == [] then None
    else
      KeepLabelCharsSpec(ToLower(name.value));
      var cleaned := KeepLabelChars(ToLower(name.value));
      if cleaned == [] || |cleaned| < 3 then None else Some(cleaned)
  }

  /** A label that is already clean is its own normal form. */
  lemma CleanLabelIsFixed(t: string)
    requires IsLabel(t) && |t| >= 3
    ensures SanitizeSub(Some(t)) == Some(t)
  {
    assert ToLower(t) == t;
    SubsequenceReflexive(t);
    KeepLabelCharsUnique(t, t);
  }

  /** Sanitising is idempotent. */
  lemma SanitizeSubIdempotent(name: Option<string>)
    requires SanitizeSub(name).Some?
    ensures SanitizeSub(SanitizeSub(name)) == SanitizeSub(name)
  {
    CleanLabelIsFixed(SanitizeSub(name).value);
  }

  /** A label is accepted unchanged exactly when it is already clean. */
  lemma SanitizeSubFixedPoints(t: string)
    ensures SanitizeSub(Some(t)) == Some(t) <==> IsLabel(t) && |t| >= 3
  {
    if IsLabel(t) && |t| >= 3 {
      CleanLabelIsFixed(t);
    }
  }

  /** Filtering distributes over concatenation. */
  lemma {:induction false} KeepLabelCharsAppend(a: string, b: string)
    ensures KeepLabelChars(a + b) == KeepLabelChars(a) + KeepLabelChars(b)
    decreases |a|
  {
    if a == [] {
      assert a + b == b;
    } else {
      assert (a + b)[0] == a[0];
      assert (a + b)[1..] == a[1..] + b;
      KeepLabelCharsAppend(a[1..], b);
    }
  }

  /** Filtering leaves a string of label characters alone. */
  lemma {:induction false} KeepLabelCharsOfLabel(s: string)
    requires IsLabel(s)
    ensures KeepLabelChars(s) == s
    decreases |s|
  {
    if s != [] {
      KeepLabelCharsOfLabel(s[1..]);
    }
  }

  // ---------------------------------------------------------------------------
  // isValidEmailLocal
  // ---------------------------------------------------------------------------

  /** `[a-z0-9._-]` with the `i` flag: letters of either case, digits, `.`, `_`, `-`. */
  predicate IsLocalChar(c: char) {
    'a' <= c <= 'z' || 'A' <= c <= 'Z' || '0' <= c <= '9' || c == '.' || c == '_' || c == '-'
  }

  /** The class `[a-z0-9._-]` as written, before case folding. */
  predicate IsFoldedLocalChar(c: char) {
    'a' <= c <= 'z' || '0' <= c <= '9' || c == '.' || c == '_' || c == '-'
  }

  /** `/^[a-z0-9._-]{1,32}$/i.test(local)`: the case-insensitive flag is applied by
      folding the candidate to lower case and matching the class as written. */
  function IsValidEmailLocal(local: string): (r: bool)
    ensures r <==> 1 <= |local| <= 32 && forall i :: 0 <= i < |local| ==> IsLocalChar(local[i])
  {
    var folded := ToLower(local);
    assert forall i :: 0 <= i < |local| ==> (IsFoldedLocalChar(folded[i]) <==> IsLocalChar(local[i]));
    1 <= |local| <= 32 && forall i :: 0 <= i < |folded| ==> IsFoldedLocalChar(folded[i])
  }

  // ---------------------------------------------------------------------------
  // isValidDestinationEmail
  // ---------------------------------------------------------------------------

  /** `[^@\s]`. */
  predicate IsAddressChar(c: char) {
    c != '@' && !IsSpace(c)
  }

  predicate AllAddressChars(s: string) {
    forall i :: 0 <= i < |s| ==> IsAddressChar(s[i])
  }

  /** The regular expression `^[^@\s]+@[^@\s]+\.[^@\s]+$` read literally: three
      non-empty runs of `[^@\s]` separated by an `@` and then a `.`. */
  ghost predicate MatchesDestinationPattern(s: string) {
    exists i, j ::
      && 0 < i && i + 1 < j && j + 1 < |s|
      && s[i] == '@' && s[j] == '.'
      && AllAddressChars(s[..i]) && AllAddressChars(s[i + 1..j]) && AllAddressChars(s[j + 1..])
  }

  /** `isValidDestinationEmail`, decided by scanning: no white space, one `@` that is
      not the first character, and a `.` strictly inside the part after it. */
  function IsValidDestinationEmail(email: string): (r: bool)
    ensures r ==> NoSpace(email) && '@' in email
    ensures r ==> var at := IndexOf(email, '@'); at > 0 && '@' !in email[at + 1..]
  {
    && NoSpace(email)
    && '@' in email
    && var at := IndexOf(email, '@');
       && at > 0
       && '@' !in email[at + 1..]
       && exists k :: at + 1 < k < |email| - 1 && email[k] == '.'
  }

  /** A stretch of a string without white space, inside a slice without `@`, is a
      run of `[^@\s]`. */
  lemma AddressRun(s: string, lo: int, hi: int, a: int, b: int)
    requires 0 <= lo <= a <= b <= hi <= |s|
    requires NoSpace(s) && '@' !in s[lo..hi]
    ensures AllAddressChars(s[a..b])
  {
    forall m | 0 <= m < b - a
      ensures IsAddressChar(s[a..b][m])
    {
      assert s[a..b][m] == s[a + m] == s[lo..hi][a - lo + m];
    }
  }

  /** What the scan accepts, the regular expression matches. */
  lemma DestinationScanMatches(s: string)
    requires IsValidDestinationEmail(s)
    ensures MatchesDestinationPattern(s)
  {
    var at := IndexOf(s, '@');
    var k :| at + 1 < k < |s| - 1 && s[k] == '.';
    assert s[..at] == s[0..at];
    AddressRun(s, 0, at, 0, at);
    AddressRun(s, at + 1, |s|, at + 1, k);
    AddressRun(s, at + 1, |s|, k + 1, |s|);
    assert s[k + 1..] == s[k + 1..|s|];
    assert 0 < at && at + 1 < k && k + 1 < |s| && s[at] == '@' && s[k] == '.';
  }

  /** Three runs of `[^@\s]` around an `@` and a `.`: the whole string is free of
      white space, and its only `@` is the one between the first two runs. */
  lemma ThreeRuns(s: string, i: int, j: int)
    requires 0 < i && i + 1 < j && j + 1 < |s| && s[i] == '@' && s[j] == '.'
    requires AllAddressChars(s[..i]) && AllAddressChars(s[i + 1..j]) && AllAddressChars(s[j + 1..])
    ensures NoSpace(s)
    ensures forall k :: 0 <= k < |s| && s[k] == '@' ==> k == i
  {
    forall k | 0 <= k < |s|
      ensures !IsSpace(s[k]) && (s[k] == '@' ==> k == i)
    {
      if k < i {
        assert s[k] == s[..i][k];
      } else if i < k < j {
        assert s[k] == s[i + 1..j][k - i - 1];
      } else if j < k {
        assert s[k] == s[j + 1..][k - j - 1];
      }
    }
  }

  /** What the regular expression matches, the scan accepts. */
  lemma PatternPassesScan(s: string)
    requires MatchesDestinationPattern(s)
    ensures IsValidDestinationEmail(s)
  {
    var i, j :|
      && 0 < i && i + 1 < j && j + 1 < |s|
      && s[i] == '@' && s[j] == '.'
      && AllAddressChars(s[..i]) && AllAddressChars(s[i + 1..j]) && AllAddressChars(s[j + 1..]);
    ThreeRuns(s, i, j);
    assert s[i] == '@';
    var at := IndexOf(s, '@');
    assert at == i;
    var tail := s[at + 1..];
    forall m | 0 <= m < |tail|
      ensures tail[m] != '@'
    {
      assert tail[m] == s[at + 1 + m];
    }
    assert at + 1 < j < |s| - 1 && s[j] == '.';
  }

  /** The scan agrees with the regular expression on every string. */
  lemma DestinationEmailMatchesPattern(s: string)
    ensures IsValidDestinationEmail(s) <==> MatchesDestinationPattern(s)
  {
  }

  /** A valid local part holds no `@`. */
  lemma NoAtInLocal(l: string)
    requires IsValidEmailLocal(l)
    ensures '@' !in l
  {
    forall i | 0 <= i < |l|
      ensures l[i] != '@'
    {
      assert IsLocalChar(l[i]);
    }
  }

  /** Two strings that both split as `p c r` with no `c` in `p` split the same way. */
  lemma FirstSeparatorSplits(p1: string, r1: string, p2: string, r2: string, c: char)
    requires c !in p1 && c !in p2
    requires p1 + [c] + r1 == p2 + [c] + r2
    ensures p1 == p2 && r1 == r2
  {
    var s := p1 + [c] + r1;
    IndexOfAfterPiece(p1, c, r1);
    IndexOfAfterPiece(p2, c, r2);
    assert p1 == s[..|p1|] && p2 == s[..|p2|];
    assert r1 == s[|p1| + 1..] && r2 == s[|p2| + 1..];
  }

  /** Equal strings with the same suffix have equal prefixes. */
  lemma SameSuffixCancels(a: string, b: string, t: string)
    requires a + t == b + t
    ensures a == b
  {
    assert a == (a + t)[..|a|] && b == (b + t)[..|b|];
  }

  /** With a valid local part, the composed address `local@label.root` determines
      the local part and the label: the `@` is the first one in the address. */
  lemma ComposedAddressInjective(l1: string, s1: string, l2: string, s2: string, root: string)
    requires IsValidEmailLocal(l1) && IsValidEmailLocal(l2)
    requires l1 + "@" + s1 + "." + root == l2 + "@" + s2 + "." + root
    ensures l1 == l2 && s1 == s2
  {
    NoAtInLocal(l1);
    NoAtInLocal(l2);
    assert l1 + "@" + s1 + "." + root == l1 + ['@'] + (s1 + ("." + root));
    assert l2 + "@" + s2 + "." + root == l2 + ['@'] + (s2 + ("." + root));
    FirstSeparatorSplits(l1, s1 + ("." + root), l2, s2 + ("." + root), '@');
    SameSuffixCancels(s1, s2, "." + root);
  }
}

=== FILE: workflow.dfy ===
/** The mutating endpoints of `server.js` applied one request after another to one
    store: the handlers run sequentially, each to completion, and every gate is
    computed from the request's own headers. */
module Workflow {
  import opened Wrappers
  import opened NimAuth
  import opened Storage
  import opened Provisioning
  import opened Reset

  /** A request to one of the three endpoints that write, with the provider's
      answers to the calls it may make. */
  datatype Request =
    | NewSubdomain(headers: map<string, string>, nim: Option<string>, subdomain: Option<string>, answer: Answer)
    | NewEmail(headers: map<string, string>, nim: Option<string>, local: Option<string>,
               subdomain: Option<string>, destination: Option<string>, answer: Answer)
    | ResetNim(headers: map<string, string>, nim: Option<string>, dryRun: Option<bool>, confirm: Option<bool>,
               provider: Call -> Answer)

  /** Which admin-reset handler runs: the one in `server.js`, whose admin gate never
      stops the request, or the evidently intended one. */
  datatype Reading = AsWritten | Intended

  /** An owner document, once stored, stays with the same name: the create handler
      inserts one only when it is absent, and nothing deletes one. */
  predicate KeepsOwners(before: Store, after: Store) {
    forall n :: n in before.owners ==> n in after.owners && after.owners[n] == before.owners[n]
  }

  /** Routes one request to its handler. Create-subdomain leaves the routes alone and
      create-email the subdomains and owners; under the intended reading a refused
      admin gate stops a reset, and as written the reset's effects happen anyway. */
  function Handle(cfg: Config, reading: Reading, store: Store, req: Request): (r: Step)
    // each request is answered by its own endpoint, behind the per-identity gate
    // built from its own headers
    ensures req.NewSubdomain? ==>
      r == CreateSubdomain(cfg, NimGate(cfg, req.headers), req.nim, req.subdomain, store, req.answer)
    ensures req.NewEmail? ==>
      r == CreateEmail(cfg, NimGate(cfg, req.headers), req.nim, req.local, req.subdomain, req.destination, store, req.answer)
    ensures req.ResetNim? && reading == Intended ==>
      r == AdminReset(cfg, RequireAdmin(cfg.env, req.headers, cfg.decode), req.nim, req.dryRun, req.confirm, store, req.provider)
    ensures req.ResetNim? && reading == AsWritten ==>
      r == AdminResetAsWritten(cfg, RequireAdmin(cfg.env, req.headers, cfg.decode), req.nim, req.dryRun, req.confirm, store, req.provider)
    ensures KeepsOwners(store, r.store)
    ensures req.NewSubdomain? ==> r.store.emails == store.emails
    ensures req.NewEmail? ==> r.store.subs == store.subs && r.store.owners == store.owners
    ensures req.ResetNim? ==> r.store.owners == store.owners
    ensures req.ResetNim? && reading == Intended && RequireAdmin(cfg.env, req.headers, cfg.decode) != Pass ==>
      r.store == store && r.calls == []
    ensures req.ResetNim? && reading == AsWritten ==>
      r.store == ResetBody(cfg, req.nim, req.dryRun, req.confirm, store, req.provider).store
  {
    match req
    case NewSubdomain(headers, nim, subdomain, answer) =>
      CreateSubdomain(cfg, NimGate(cfg, headers), nim, subdomain, store, answer)
    case NewEmail(headers, nim, local, subdomain, destination, answer) =>
      CreateEmail(cfg, NimGate(cfg, headers), nim, local, subdomain, destination, store, answer)
    case ResetNim(headers, nim, dryRun, confirm, provider) =>
      ResetKeepsOwners(cfg, nim, dryRun, confirm, store, provider);
      var admin := RequireAdmin(cfg.env, headers, cfg.decode);
      match reading
      case AsWritten => AdminResetAsWritten(cfg, admin, nim, dryRun, confirm, store, provider)
      case Intended => AdminReset(cfg, admin, nim, dryRun, confirm, store, provider)
  }

  /** Every request handled in order; the store after the last one. No owner
      document is ever lost or renamed along the way. */
  function Run(cfg: Config, reading: Reading, store: Store, reqs: seq<Request>): (r: Store)
    ensures KeepsOwners(store, r)
    decreases |reqs|
  {
    if reqs == [] then store else Run(cfg, reading, Handle(cfg, reading, store, reqs[0]).store, reqs[1..])
  }

  /** Each handler keeps the store consistent, under either reading of reset. */
  lemma HandlePreservesConsistent(cfg: Config, reading: Reading, store: Store, req: Request)
    requires Consistent(store)
    ensures Consistent(Handle(cfg, reading, store, req).store)
  {
    match req
    case NewSubdomain(headers, nim, subdomain, answer) =>
      CreateSubdomainPreservesConsistent(cfg, NimGate(cfg, headers), nim, subdomain, store, answer);
    case NewEmail(headers, nim, local, subdomain, destination, answer) =>
      CreateEmailPreservesConsistent(cfg, NimGate(cfg, headers), nim, local, subdomain, destination, store, answer);
    case ResetNim(headers, nim, dryRun, confirm, provider) =>
      var admin := RequireAdmin(cfg.env, headers, cfg.decode);
      AdminResetPreservesConsistent(cfg, admin, nim, dryRun, confirm, store, provider);
      AdminResetAsWrittenPreservesConsistent(cfg, admin, nim, dryRun, confirm, store, provider);
  }

  /** Each handler keeps the limits, under either reading of reset. */
  lemma HandlePreservesQuotaAndUnique(cfg: Config, reading: Reading, store: Store, req: Request)
    requires QuotaAndUnique(store)
    ensures QuotaAndUnique(Handle(cfg, reading, store, req).store)
  {
    match req
    case NewSubdomain(headers, nim, subdomain, answer) =>
      CreateSubdomainPreservesQuotaAndUnique(cfg, NimGate(cfg, headers), nim, subdomain, store, answer);
    case NewEmail(headers, nim, local, subdomain, destination, answer) =>
      CreateEmailPreservesQuotaAndUnique(cfg, NimGate(cfg, headers), nim, local, subdomain, destination, store, answer);
    case ResetNim(headers, nim, dryRun, confirm, provider) =>
      AdminResetsPreserveQuotaAndUnique(cfg, RequireAdmin(cfg.env, headers, cfg.decode), nim, dryRun, confirm, store, provider);
  }

  /** Sequential invariant on the limits alone: from any store within quota and
      with unique names and addresses, whatever else holds of it, any sequence of
      requests with any provider answers keeps it so. */
  lemma {:induction false} RunPreservesQuotaAndUnique(cfg: Config, reading: Reading, store: Store, reqs: seq<Request>)
    requires QuotaAndUnique(store)
    ensures QuotaAndUnique(Run(cfg, reading, store, reqs))
    decreases |reqs|
  {
    if reqs != [] {
      HandlePreservesQuotaAndUnique(cfg, reading, store, reqs[0]);
      RunPreservesQuotaAndUnique(cfg, reading, Handle(cfg, reading, store, reqs[0]).store, reqs[1..]);
    }
  }

  /** Sequential invariant: from a consistent store, any sequence of requests, with
      any provider answers, leaves every identity within quota, every name and
      address unique and every route under its owner's subdomain. This holds for
      the reset handler as written as well as for the intended one: the defect in
      its gate lets the wrong caller delete, but what it deletes keeps the store
      consistent. */
  lemma {:induction false} RunPreservesConsistent(cfg: Config, reading: Reading, store: Store, reqs: seq<Request>)
    requires Consistent(store)
    ensures Consistent(Run(cfg, reading, store, reqs))
    decreases |reqs|
  {
    if reqs != [] {
      HandlePreservesConsistent(cfg, reading, store, reqs[0]);
      RunPreservesConsistent(cfg, reading, Handle(cfg, reading, store, reqs[0]).store, reqs[1..]);
    }
  }

  /** Handling `a` then `b` is handling `a + b`. */
  lemma {:induction false} RunAppend(cfg: Config, reading: Reading, store: Store, a: seq<Request>, b: seq<Request>)
    ensures Run(cfg, reading, store, a + b) == Run(cfg, reading, Run(cfg, reading, store, a), b)
    decreases |a|
  {
    if a == [] {
      assert a + b == b;
    } else {
      assert (a + b)[0] == a[0];
      assert (a + b)[1..] == a[1..] + b;
      RunAppend(cfg, reading, Handle(cfg, reading, store, a[0]).store, a[1..], b);
    }
  }

  /** Whatever requests run, under either reading of reset, an identity never holds
      more than three subdomains or three routes. */
  lemma QuotaNeverExceeded(cfg: Config, reading: Reading, reqs: seq<Request>, nim: string)
    ensures |SubsOf(Run(cfg, reading, Store([], [], map[]), reqs).subs, nim)| <= Quota
    ensures |EmailsOf(Run(cfg, reading, Store([], [], map[]), reqs).emails, nim)| <= Quota
  {
    var empty := Store([], [], map[]);
    assert UniqueFqdns(empty.subs) && UniqueEmails(empty.emails);
    RunPreservesQuotaAndUnique(cfg, reading, empty, reqs);
  }
}

=== FILE: wrappers.dfy ===
/** Option, the model of a JavaScript value that may be `null`/`undefined`. */
module Wrappers {

  datatype Option<+T> = None | Some(value: T) {

    /** The value, or `default` when there is none (JavaScript's `x || default`
        for non-empty values). */
    function GetOr(default: T): T {
      match this
      case Some(v) => v
      case None => default
    }
  }
}
